=== FILE: README.md ===
# Durable time-schedule store and DAG editor store

This project models two pieces of CDAP in Dafny.

**The durable time-schedule store** (`DatasetBasedTimeScheduleStore`).
It extends Quartz's in-memory job store (`RAMJobStore`) so that schedules survive a restart.
Every mutating call goes to the in-memory engine first.
Records are written or deleted only for what the engine accepts, and each record write or delete runs in a transaction of its own.
So `storeJobAndTrigger` runs two transactions, and `removeJob` runs one per trigger of the job plus its own.
Job records live in row `jobs`, at column `group.name`.
Trigger records live in row `trigger`, at column `name`; each holds the trigger and its state.
On `initialize` one transaction reads both rows.
The store then replays every job, and then every trigger record whose state is NORMAL or PAUSED.
A PAUSED trigger is paused again right after it is stored.

**The DAG editor store** (`my-dag-1-store.js`).
These are the pure reducers of the pipeline editor's Redux store: node normalisation (`getNode`) and the `nodes`, `connections`, `isDagInitialized` and `isDisabled` reducers.

Files:

- `results.dfy`: `Result` and `Option`.
- `schedule_types.dfy`: job and trigger keys, details, trigger states, the persisted `TriggerStatus`, errors.
- `ram_engine.dfy`: an abstraction of the in-memory engine.
  `RAMJobStore` is not part of this model; the engine's behaviour is stated as Quartz documents it.
- `schedule_table.dfy`: the table, the column encodings, and the single-cell helpers.
- `schedule_store.dfy`: the overridden public operations and the persistence helpers.
- `recovery.dfy`: the replay done by `initialize`.
- `durability.dfy`: the invariant that the table mirrors the engine.
  It proves that every operation preserves it and that a restart rebuilds the engine.
- `scenarios.dfy`: multi-call properties (repeated pause/resume, a duplicate job).
- `dag_store.dfy`: the DAG reducers.

Modelling choices:

- Whether a transaction commits is an input (`commit`).
- Serialized payloads are modelled as the values they decode to.
  A cell holding anything else is `Unreadable`, and reading it fails with `Corrupt`.
- The order in which a row scan returns columns is an input (`jobOrder`, `triggerOrder`).
- In JavaScript, `x || d` treats undefined, null and `''` alike, so a missing or falsy string is modelled as `""`.
- `uuid.v4()` is a parameter that supplies the fresh ids.

## Model

| member | source | states |
|---|---|---|
| ScheduleTable.PersistJob | cdap-app-fabric/src/main/java/co/cask/cdap/internal/app/runtime/schedule/store/DatasetBasedTimeScheduleStore.java:221-228 | the job record is written in row "jobs" at column `key.toString()`, and no other cell changes |
| ScheduleTable.PersistTrigger | cdap-app-fabric/src/main/java/co/cask/cdap/internal/app/runtime/schedule/store/DatasetBasedTimeScheduleStore.java:259-268 | the trigger and the given state are written in row "trigger" at the key's name only, and no other cell changes |
| ScheduleTable.ReadTrigger | cdap-app-fabric/src/main/java/co/cask/cdap/internal/app/runtime/schedule/store/DatasetBasedTimeScheduleStore.java:243-256 | returns no record iff the name's cell is empty, fails as corrupt iff the cell does not hold a trigger status, and otherwise returns exactly the stored status |
| ScheduleTable.DeleteTrigger | cdap-app-fabric/src/main/java/co/cask/cdap/internal/app/runtime/schedule/store/DatasetBasedTimeScheduleStore.java:230-234 | the name's cell is gone, and every other cell is as before |
| ScheduleTable.DeleteJob | cdap-app-fabric/src/main/java/co/cask/cdap/internal/app/runtime/schedule/store/DatasetBasedTimeScheduleStore.java:237-241 | the cell at column `key.getName()` is gone, every other cell is kept, and the record at `key.toString()` survives |
| ScheduleTable.JobColumnsCanCollide | cdap-app-fabric/src/main/java/co/cask/cdap/internal/app/runtime/schedule/store/DatasetBasedTimeScheduleStore.java:225 | two different job keys, ("a.b","c") and ("a","b.c"), write the same column |
| ScheduleStore.Transact | cdap-app-fabric/src/main/java/co/cask/cdap/internal/app/runtime/schedule/store/DatasetBasedTimeScheduleStore.java:201-217 | the body's result is kept iff the body succeeds and the commit succeeds; a body failure propagates unchanged; a failed commit is a transaction failure |
| ScheduleStore.PersistJobAndTrigger | cdap-app-fabric/src/main/java/co/cask/cdap/internal/app/runtime/schedule/store/DatasetBasedTimeScheduleStore.java:194-218 | succeeds iff the transaction commits; writes the job record when a job is given; writes the trigger with the state the engine reports after storing it; leaves the row of an absent argument untouched; changes no cell other than the records it writes |
| ScheduleStore.StoreJob | cdap-app-fabric/src/main/java/co/cask/cdap/internal/app/runtime/schedule/store/DatasetBasedTimeScheduleStore.java:81-85 | a duplicate without replace fails with AlreadyExists and changes neither store; otherwise the engine holds the job, and the record is written iff the commit succeeds |
| ScheduleStore.StoreTrigger | cdap-app-fabric/src/main/java/co/cask/cdap/internal/app/runtime/schedule/store/DatasetBasedTimeScheduleStore.java:87-91 | AlreadyExists is checked before JobNotFound, and neither error changes a store; otherwise the engine holds the trigger in its initial state, its jobs and paused groups are unchanged, and the record carries that state iff the commit succeeds |
| ScheduleStore.FirstAbort | cdap-app-fabric/src/main/java/co/cask/cdap/internal/app/runtime/schedule/store/DatasetBasedTimeScheduleStore.java:201-217 | the index of the first transaction that does not commit: every earlier one commits, and it does not (the count when all commit) |
| ScheduleStore.StoreCall | cdap-app-fabric/src/main/java/co/cask/cdap/internal/app/runtime/schedule/store/DatasetBasedTimeScheduleStore.java:81-91 | a store call the engine issues goes through the overriding storeJob/storeTrigger: an engine rejection changes nothing and returns the engine's error; an accepted call leaves the engine's new state, and then either writes exactly its record (the job, or the trigger with the state the engine reports) on commit, or fails with TransactionFailure and leaves the table as it was |
| ScheduleStore.StoreEach | cdap-app-fabric/src/main/java/co/cask/cdap/internal/app/runtime/schedule/store/DatasetBasedTimeScheduleStore.java:81-91 | the calls go through the overrides in order, each persisting in its own transaction; the engine ends as the engine's own calls leave it, up to and including the first call whose commit fails; the result is the engine's error, else TransactionFailure if some commit fails, else success; only the calls' records change, and on success every call has its record |
| ScheduleStore.StoreEachAllCommit | cdap-app-fabric/src/main/java/co/cask/cdap/internal/app/runtime/schedule/store/DatasetBasedTimeScheduleStore.java:81-91 | when every transaction commits, the calls report exactly what the engine's own calls report and leave the same engine |
| ScheduleStore.StoreEachOutcome | cdap-app-fabric/src/main/java/co/cask/cdap/internal/app/runtime/schedule/store/DatasetBasedTimeScheduleStore.java:81-91 | success means every transaction committed; a failure is AlreadyExists, JobNotFound or TransactionFailure, and TransactionFailure only when some transaction failed |
| ScheduleStore.StoreEachKeepsOtherStates | cdap-app-fabric/src/main/java/co/cask/cdap/internal/app/runtime/schedule/store/DatasetBasedTimeScheduleStore.java:81-91 | the calls leave the reported state of every trigger key none of them stores |
| ScheduleStore.StoreEachKeepsRecord | cdap-app-fabric/src/main/java/co/cask/cdap/internal/app/runtime/schedule/store/DatasetBasedTimeScheduleStore.java:81-91 | a record no later call writes keeps its job, or its trigger with the trigger's final state |
| ScheduleStore.StoreEachRecords | cdap-app-fabric/src/main/java/co/cask/cdap/internal/app/runtime/schedule/store/DatasetBasedTimeScheduleStore.java:81-91 | after a successful run, the last record written to each cell holds what its call wrote: the job, or the trigger with the state the engine reports at the end |
| ScheduleStore.StoreJobsAndTriggers | cdap-app-fabric/src/main/java/co/cask/cdap/internal/app/runtime/schedule/store/DatasetBasedTimeScheduleStore.java:94-99 | without replace, a colliding batch fails with AlreadyExists and changes nothing; otherwise every job and trigger is stored with replace through the overrides, so the engine, result and records are those of StoreEach over the batch's calls: the engine stops after the first failed commit, success means every commit succeeded, only the batch's records change, and each job and trigger of an accepted batch has a record holding the last version written |
| ScheduleStore.StoreJobAndTrigger | cdap-app-fabric/src/main/java/co/cask/cdap/internal/app/runtime/schedule/store/DatasetBasedTimeScheduleStore.java:101-106 | the job is always stored, with replace, and the paused groups are kept; a failed job commit skips the trigger and leaves the table, triggers and states as they were; otherwise the trigger is stored with replace in its initial state in a second transaction, whose failure leaves exactly the job record written; an unknown job leaves the triggers and states as they were |
| ScheduleStore.PersistChangeOfState | cdap-app-fabric/src/main/java/co/cask/cdap/internal/app/runtime/schedule/store/DatasetBasedTimeScheduleStore.java:171-192 | with no record, nothing is written and no error is raised; an unreadable record is corrupt; otherwise the stored trigger is written back with the new state |
| ScheduleStore.PauseTrigger | cdap-app-fabric/src/main/java/co/cask/cdap/internal/app/runtime/schedule/store/DatasetBasedTimeScheduleStore.java:108-112 | the engine pauses first; then an existing record is rewritten as PAUSED, a missing record is ignored, and a failed commit leaves the table unchanged |
| ScheduleStore.ResumeTrigger | cdap-app-fabric/src/main/java/co/cask/cdap/internal/app/runtime/schedule/store/DatasetBasedTimeScheduleStore.java:114-118 | the engine resumes first; then an existing record is rewritten as NORMAL, a missing record is ignored, and a failed commit leaves the table unchanged |
| ScheduleStore.RemoveTrigger | cdap-app-fabric/src/main/java/co/cask/cdap/internal/app/runtime/schedule/store/DatasetBasedTimeScheduleStore.java:120-129 | answers true whatever the engine held; the engine no longer holds the trigger; on commit only the record under the key's name is deleted |
| ScheduleStore.RemoveJob | cdap-app-fabric/src/main/java/co/cask/cdap/internal/app/runtime/schedule/store/DatasetBasedTimeScheduleStore.java:132-141 | (as written) answers true; the engine drops the job and its triggers; the cascade deletes each of those triggers' records; the final delete hits column `key.getName()`, so the job record stays; a failed commit changes only the cascaded records |
| ScheduleStore.RemoveJobCorrected | cdap-app-fabric/src/main/java/co/cask/cdap/internal/app/runtime/schedule/store/DatasetBasedTimeScheduleStore.java:237-241 | (corrected) the cascade is as written; on commit the record at the column the job was written under is also deleted; no other cell changes |
| Recovery.ReadJobs | cdap-app-fabric/src/main/java/co/cask/cdap/internal/app/runtime/schedule/store/DatasetBasedTimeScheduleStore.java:280-289 | fails as corrupt iff some scanned cell is not a job; otherwise returns exactly the jobs found in the scanned columns |
| Recovery.ReadTriggers | cdap-app-fabric/src/main/java/co/cask/cdap/internal/app/runtime/schedule/store/DatasetBasedTimeScheduleStore.java:291-306 | fails as corrupt iff some scanned cell is not a trigger status; otherwise returns exactly the NORMAL and PAUSED records found |
| Recovery.Initialize | cdap-app-fabric/src/main/java/co/cask/cdap/internal/app/runtime/schedule/store/DatasetBasedTimeScheduleStore.java:271-324 | when the scan reads every column, it fails as corrupt iff some cell of either row is unreadable; a failed read transaction aborts it; a successful one yields a well-formed engine |
| Recovery.TriggerCallsShape | cdap-app-fabric/src/main/java/co/cask/cdap/internal/app/runtime/schedule/store/DatasetBasedTimeScheduleStore.java:314-323 | trigger replay stores no job, stores every trigger with replace, and issues each pause right after the store of the same key |
| Recovery.ReplayOrder | cdap-app-fabric/src/main/java/co/cask/cdap/internal/app/runtime/schedule/store/DatasetBasedTimeScheduleStore.java:310-323 | replay stores all jobs, in order and with replace, before any trigger, and never stores a job after a trigger |
| Recovery.ReplayPausesExactlyPaused | cdap-app-fabric/src/main/java/co/cask/cdap/internal/app/runtime/schedule/store/DatasetBasedTimeScheduleStore.java:314-323 | replay pauses exactly the keys of the PAUSED records, in record order |
| Recovery.ReplayInstallsExactlyReplayable | cdap-app-fabric/src/main/java/co/cask/cdap/internal/app/runtime/schedule/store/DatasetBasedTimeScheduleStore.java:291-323 | for any table, a successful replay holds exactly the triggers of the NORMAL and PAUSED records in the scanned columns |
| Recovery.ReplayKeepsExactlyReplayableRecords | cdap-app-fabric/src/main/java/co/cask/cdap/internal/app/runtime/schedule/store/DatasetBasedTimeScheduleStore.java:291-323 | when the scan reads the whole trigger row, a successful replay holds exactly the triggers of the row's NORMAL and PAUSED records |
| Durability.ReplayJobs | cdap-app-fabric/src/main/java/co/cask/cdap/internal/app/runtime/schedule/store/DatasetBasedTimeScheduleStore.java:310-312 | storing the replayed jobs with replace adds exactly their keys, each bound to its job |
| Durability.ReplayStatus | cdap-app-fabric/src/main/java/co/cask/cdap/internal/app/runtime/schedule/store/DatasetBasedTimeScheduleStore.java:314-322 | replaying one record installs its trigger and leaves it in the recorded state |
| Durability.ReplayTriggers | cdap-app-fabric/src/main/java/co/cask/cdap/internal/app/runtime/schedule/store/DatasetBasedTimeScheduleStore.java:314-323 | replaying trigger records installs each of them in its recorded state |
| Durability.ReadJobsOfSynced | cdap-app-fabric/src/main/java/co/cask/cdap/internal/app/runtime/schedule/store/DatasetBasedTimeScheduleStore.java:280-289 | reading a mirrored jobs row yields exactly the engine's jobs |
| Durability.ReadTriggersOfSynced | cdap-app-fabric/src/main/java/co/cask/cdap/internal/app/runtime/schedule/store/DatasetBasedTimeScheduleStore.java:291-306 | reading a mirrored trigger row yields exactly the engine's triggers with their states |
| Durability.ReplayRebuilds | cdap-app-fabric/src/main/java/co/cask/cdap/internal/app/runtime/schedule/store/DatasetBasedTimeScheduleStore.java:310-323 | replaying exactly the engine's jobs and records into a fresh engine rebuilds that engine |
| Durability.RestartRestores | cdap-app-fabric/src/main/java/co/cask/cdap/internal/app/runtime/schedule/store/DatasetBasedTimeScheduleStore.java:68-79 | restart round trip: initializing from a mirrored table, in any column order, yields the same jobs, triggers and states |
| Durability.StoreJobKeepsSynced | cdap-app-fabric/src/main/java/co/cask/cdap/internal/app/runtime/schedule/store/DatasetBasedTimeScheduleStore.java:81-85 | a committed storeJob keeps the table mirroring the engine, unless another job shares the written column |
| Durability.StoreTriggerKeepsSynced | cdap-app-fabric/src/main/java/co/cask/cdap/internal/app/runtime/schedule/store/DatasetBasedTimeScheduleStore.java:87-91 | a committed storeTrigger keeps the mirror, unless another trigger shares the name |
| Durability.RewriteKeepsSynced | cdap-app-fabric/src/main/java/co/cask/cdap/internal/app/runtime/schedule/store/DatasetBasedTimeScheduleStore.java:178-182 | rewriting a record with the state the engine now holds keeps the mirror |
| Durability.NoRecordForUnknownTrigger | cdap-app-fabric/src/main/java/co/cask/cdap/internal/app/runtime/schedule/store/DatasetBasedTimeScheduleStore.java:183-186 | in a mirrored store, a trigger the engine does not hold has no record, so the warning branch writes nothing |
| Durability.PauseKeepsSynced | cdap-app-fabric/src/main/java/co/cask/cdap/internal/app/runtime/schedule/store/DatasetBasedTimeScheduleStore.java:108-112 | a committed pauseTrigger keeps the mirror |
| Durability.ResumeKeepsSynced | cdap-app-fabric/src/main/java/co/cask/cdap/internal/app/runtime/schedule/store/DatasetBasedTimeScheduleStore.java:114-118 | a committed resumeTrigger keeps the mirror |
| Durability.RemoveTriggerKeepsSynced | cdap-app-fabric/src/main/java/co/cask/cdap/internal/app/runtime/schedule/store/DatasetBasedTimeScheduleStore.java:120-129 | a committed removeTrigger keeps the mirror |
| Durability.CascadeKeepsSynced | cdap-app-fabric/src/main/java/co/cask/cdap/internal/app/runtime/schedule/store/DatasetBasedTimeScheduleStore.java:121-129 | the removeJob cascade, each trigger going through the overridden removeTrigger, keeps the mirror and leaves the job without triggers |
| Durability.RemoveJobCorrectedKeepsSynced | cdap-app-fabric/src/main/java/co/cask/cdap/internal/app/runtime/schedule/store/DatasetBasedTimeScheduleStore.java:237-241 | the corrected removeJob keeps the mirror, when the job's column and its triggers' names are not shared with other keys |
| Durability.StoreJobAndTriggerKeepsSynced | cdap-app-fabric/src/main/java/co/cask/cdap/internal/app/runtime/schedule/store/DatasetBasedTimeScheduleStore.java:101-106 | storeJobAndTrigger with both commits keeps the mirror |
| Durability.StoreEachKeepsSynced | cdap-app-fabric/src/main/java/co/cask/cdap/internal/app/runtime/schedule/store/DatasetBasedTimeScheduleStore.java:81-91 | store calls issued through the overrides, every transaction committing, keep the mirror when each call, in the engine it meets, does not alias another key's record |
| Durability.BulkStoreKeepsSynced | cdap-app-fabric/src/main/java/co/cask/cdap/internal/app/runtime/schedule/store/DatasetBasedTimeScheduleStore.java:94-99 | a committed storeJobsAndTriggers keeps the mirror under the same aliasing premise, call by call |
| Durability.ExecKeepsSynced | cdap-app-fabric/src/main/java/co/cask/cdap/internal/app/runtime/schedule/store/DatasetBasedTimeScheduleStore.java:81-129 | every admissible committed operation keeps the mirror |
| Durability.RunKeepsSynced | cdap-app-fabric/src/main/java/co/cask/cdap/internal/app/runtime/schedule/store/DatasetBasedTimeScheduleStore.java:81-129 | every admissible history of committed operations keeps the mirror |
| Durability.HistoryRestores | cdap-app-fabric/src/main/java/co/cask/cdap/internal/app/runtime/schedule/store/DatasetBasedTimeScheduleStore.java:271-324 | after any admissible history from an empty store, a restart rebuilds exactly the engine the history produced |
| Durability.RemoveTriggerThenRestart | cdap-app-fabric/src/main/java/co/cask/cdap/internal/app/runtime/schedule/store/DatasetBasedTimeScheduleStore.java:120-129 | after removeTrigger and a restart, the trigger is gone |
| Durability.RemoveJobResurrects | cdap-app-fabric/src/main/java/co/cask/cdap/internal/app/runtime/schedule/store/DatasetBasedTimeScheduleStore.java:132-141 | (as written) only the job's trigger records are deleted, the job record stays, and a restart brings the removed job back without its triggers |
| Durability.RemoveJobResurrectsExample | cdap-app-fabric/src/main/java/co/cask/cdap/internal/app/runtime/schedule/store/DatasetBasedTimeScheduleStore.java:225 | a concrete store with job ("DEFAULT","job1") meets every premise of the resurrection |
| Durability.RemoveJobCorrectedThenRestart | cdap-app-fabric/src/main/java/co/cask/cdap/internal/app/runtime/schedule/store/DatasetBasedTimeScheduleStore.java:237-241 | (corrected) after removeJob and a restart, the job and its triggers are gone, when the job's column and its triggers' names are not shared with other keys |
| Durability.BulkStoreThenRestart | cdap-app-fabric/src/main/java/co/cask/cdap/internal/app/runtime/schedule/store/DatasetBasedTimeScheduleStore.java:94-99 | after a committed storeJobsAndTriggers, a restart rebuilds the engine the engine's own bulk store produced, and an accepted batch's jobs and triggers are all in it |
| Scenarios.ToggleLastWins | cdap-app-fabric/src/main/java/co/cask/cdap/internal/app/runtime/schedule/store/DatasetBasedTimeScheduleStore.java:108-118 | after any non-empty series of pauses and resumes, the record and the engine hold the state the last call asked for, and no other cell changes |
| Scenarios.DuplicateJobKeepsFirst | cdap-app-fabric/src/main/java/co/cask/cdap/internal/app/runtime/schedule/store/DatasetBasedTimeScheduleStore.java:81-85 | a second job under a taken key, stored without replace, fails with AlreadyExists, and the first version stays in the engine and the table |
| DagStore.GetNode | cdap-ui/app/directives/dag-1/my-dag-1-store.js:19-38 | a falsy id, name, endpoint, icon or badge class becomes the fresh id, 'no-name', 'LR', 'fa-plug' or 'badge-info'; falsy badges become null; every truthy field is kept; the class, flag and nodeType fields are copied; the position is always unset |
| DagStore.GetNodeFixesNormalised | cdap-ui/app/directives/dag-1/my-dag-1-store.js:19-38 | a normalised node passed through getNode again comes back unchanged, and no fresh id is used |
| DagStore.GetNodeIdempotent | cdap-ui/app/directives/dag-1/my-dag-1-store.js:19-38 | getNode is idempotent once an id has been drawn |
| DagStore.Merge | cdap-ui/app/directives/dag-1/my-dag-1-store.js:63 | every field the config carries overwrites the node's, and every field it does not carry is kept |
| DagStore.MergeIdempotent | cdap-ui/app/directives/dag-1/my-dag-1-store.js:63 | merging the same config twice is merging it once |
| DagStore.AddNode | cdap-ui/app/directives/dag-1/my-dag-1-store.js:41-45 | the existing nodes are kept in order, and the normalised node is appended |
| DagStore.RemoveNode | cdap-ui/app/directives/dag-1/my-dag-1-store.js:46-47 | no node with the id remains, and the list does not grow |
| DagStore.RemoveNodeMembers | cdap-ui/app/directives/dag-1/my-dag-1-store.js:46-47 | a node remains iff it was there and has a different id |
| DagStore.RemoveNodeAbsent | cdap-ui/app/directives/dag-1/my-dag-1-store.js:46-47 | removing an id no node has returns the list unchanged |
| DagStore.RemoveNodeAppend | cdap-ui/app/directives/dag-1/my-dag-1-store.js:46-47 | removal distributes over concatenation |
| DagStore.RemoveNodeIdempotent | cdap-ui/app/directives/dag-1/my-dag-1-store.js:46-47 | removing the same id twice is removing it once |
| DagStore.AddThenRemove | cdap-ui/app/directives/dag-1/my-dag-1-store.js:41-47 | removing a node just added restores the list, whether its id came with the spec or was drawn fresh, provided no node already had that id |
| DagStore.ResetSelected | cdap-ui/app/directives/dag-1/my-dag-1-store.js:48-52 | every node is deselected, and nothing else, including order and ids, changes |
| DagStore.ResetSelectedIdempotent | cdap-ui/app/directives/dag-1/my-dag-1-store.js:48-52 | resetting the selection twice is resetting it once |
| DagStore.FirstIndex | cdap-ui/app/directives/dag-1/my-dag-1-store.js:54-61 | finds the first node with the id, or reports that none has it |
| DagStore.UpdateNode | cdap-ui/app/directives/dag-1/my-dag-1-store.js:53-72 | the length is kept, and with no matching node the list is returned unchanged |
| DagStore.UpdateNodeFirstMatch | cdap-ui/app/directives/dag-1/my-dag-1-store.js:53-72 | only the first node with the id changes, and it gets the config's fields |
| DagStore.UpdateNodeIdempotent | cdap-ui/app/directives/dag-1/my-dag-1-store.js:53-72 | repeating an update that keeps the id changes nothing more |
| DagStore.SetNodes | cdap-ui/app/directives/dag-1/my-dag-1-store.js:73-75 | the list is replaced, position by position, by the normalised specs |
| DagStore.SetNodesRoundTrip | cdap-ui/app/directives/dag-1/my-dag-1-store.js:73-75 | setting normalised nodes back as specs reproduces them |
| DagStore.Nodes | cdap-ui/app/directives/dag-1/my-dag-1-store.js:39-79 | an unrecognised action leaves the nodes unchanged; add appends the node normalised with the first fresh id; remove leaves no node with the id; reset and update keep the length; set gives, at each position, the spec normalised with that position's fresh id |
| DagStore.NodesRemoveMembers | cdap-ui/app/directives/dag-1/my-dag-1-store.js:46-47 | REMOVE-NODE leaves exactly the nodes with other ids |
| DagStore.Connections | cdap-ui/app/directives/dag-1/my-dag-1-store.js:80-87 | SET-CONNECTIONS replaces the list, and any other action leaves it unchanged |
| DagStore.ConnectionsIdempotent | cdap-ui/app/directives/dag-1/my-dag-1-store.js:80-87 | dispatching the same action twice is dispatching it once |
| DagStore.IsDagInitialized | cdap-ui/app/directives/dag-1/my-dag-1-store.js:88-97 | true iff the action is INIT-DAG, or the state was true and the action is not RESET-INIT-DAG |
| DagStore.IsDisabled | cdap-ui/app/directives/dag-1/my-dag-1-store.js:98-107 | true iff the action is DISABLE-DAG, or the state was true and the action is not ENABLE-DAG |
| DagStore.DagInitializedLastWins | cdap-ui/app/directives/dag-1/my-dag-1-store.js:88-97 | after any history, the flag is set iff some INIT-DAG has no RESET-INIT-DAG after it, or the flag started set and no reset came |
| DagStore.DisabledLastWins | cdap-ui/app/directives/dag-1/my-dag-1-store.js:98-107 | after any history, the flag is set iff some DISABLE-DAG has no ENABLE-DAG after it, or the flag started set and no enable came |

## Left out

- The in-memory engine is an abstraction of Quartz's `RAMJobStore`, which is not part of this model.
  Left out of it: fire-time computation, misfire handling, trigger firing and the COMPLETE, ERROR and BLOCKED states it produces, PAUSED_BLOCKED, paused job groups, and orphaned-job cleanup.
- ScheduleStore.RemoveJob: the cascade calls the overridden `removeTrigger` once per trigger, each in a transaction of its own. Those transactions are assumed to commit; only the final delete's commit is an input.
  A failure in the middle of the cascade is not modelled, nor is the re-entry into `removeJob` when the cascade orphans a non-durable job (that re-entry leaves the same stores behind).
- ScheduleStore.StoreJobsAndTriggers: the override only calls the engine's bulk store, and its comment says persisting is still to be added.
  The model follows Quartz 2.x `RAMJobStore`, which is not part of this model: after its collision check it calls `storeJob(job, true)` and then `storeTrigger(trigger, true)` for each entry, and those calls dispatch to this class's overrides, which persist each record in a transaction of its own.
  The map's iteration order is the order of the batch sequence.
  When a batch repeats a job column or a trigger name, the record of the last call writing that cell remains (ScheduleStore.StoreEachRecords).
- ScheduleStore.StoreTrigger: a replacing store that the engine rejects for an unknown job is modelled as changing nothing.
  Whether Quartz has already removed the old trigger at that point is not modelled.
- Exception wrapping (`Throwables.propagate`), `Preconditions.checkNotNull` and logging are left out.
  Every failure is one `Error` value.
- Concurrency and locking are left out, as is the table's multi-version transaction machinery.
  A transaction is atomic, and its outcome is an input.
- Recovery.Initialize: the engine's paused groups are not persisted, so a restart rebuilds them as empty (Durability.RestartRestores states the round trip up to that field).
- Recovery.ReadJobs: the order of a row scan is an input.
  A cell whose column is not listed is not read.
- Durability.HistoryRestores: it needs every call's job column and trigger name to be unaliased (`Admissible`).
  Trigger records are keyed by name only, so triggers in different groups with the same name share a record, and a job group containing a dot can collide with another key (ScheduleTable.JobColumnsCanCollide).
- Durability.HistoryRestores: `Op` has no case for removeJob, because the code as written does not keep the mirror (see Findings); the corrected version has its own lemmas.
- Durability.RemoveTriggerKeepsSynced: it treats every job as durable.
  In Quartz, removing the last trigger of a non-durable job also removes the job, through the overridden `removeJob`, and that leaves the job record behind (see Findings).
  Job durability is not modelled.
- DagStore.GetNode: `disabled`, `selected` and the badge fields are typed.
  A truthy non-boolean flag or a numeric badge is not modelled, nor is the TypeError of an action without `node`.
- DagStore.UpdateNode: `matchIndex` ends at the last match, while the first match is the one mutated.
  Because the mutation is in place, the returned array equals the input with its first match merged, and that is the result modelled.
- The reducers mutate nodes in place (RESET-SELECTED, UPDATE-NODE), so the previous state kept by the undo history is mutated too.
  Object identity and aliasing are not modelled; `combineReducers`, `Undoable` and store creation are left out.
- DagStore.Merge: fields the config carries that are not node fields are not modelled.
- DagStore.SetNodes: `uuid(i)` is the id drawn for the i-th spec.
  This stands in for the sequence of `uuid.v4()` calls.

## Findings

| source | as written | input that shows it | evidently intended | confidence | as-written member | corrected member |
|---|---|---|---|---|---|---|
| cdap-app-fabric/src/main/java/co/cask/cdap/internal/app/runtime/schedule/store/DatasetBasedTimeScheduleStore.java:237-241 | `removeJob` deletes column `key.getName()`, but `persistJob` wrote the record at `key.toString()` (group + "." + name) | JobKey("DEFAULT","job1"): the record is at "DEFAULT.job1", and the delete hits "job1" | delete the column the record was written under, so that a removed job stays removed after a restart | not executed | Durability.RemoveJobResurrects | ScheduleStore.RemoveJobCorrected |

=== FILE: dag_store.dfy ===
/**
 * The pipeline-editor DAG store's reducers (`my-dag-1-store.js`): node
 * normalisation and the `nodes`, `connections`, `isDagInitialized` and
 * `isDisabled` reducers. JavaScript's falsy strings (undefined, null, '')
 * are modelled as the empty string; `uuid.v4()` is a parameter.
 */
module DagStore {
  import opened Results

  /** A node's on-canvas position; `getNode` always sets both to ''. */
  datatype Position = Position(left: string, top: string)

  /** A node as the store holds it. `None` stands for null/undefined. */
  datatype Node = Node(
    id: string,
    name: string,
    endpoint: string,
    icon: string,
    cssClass: string,
    badgeInfo: Option<string>,
    badgeCssClass: string,
    badgeTooltip: Option<string>,
    tooltipCssClass: string,
    disabled: bool,
    selected: bool,
    nodeType: Option<string>,
    uiPosition: Position)

  /** The fields a caller passes to `getNode`; "" is a missing or falsy value. */
  datatype NodeSpec = NodeSpec(
    id: string,
    name: string,
    endpoint: string,
    icon: string,
    cssClass: string,
    badgeInfo: string,
    badgeCssClass: string,
    badgeTooltip: string,
    tooltipCssClass: string,
    disabled: bool,
    selected: bool,
    nodeType: Option<string>)

  /** The value of `a || b` for strings. */
  function Or(a: string, b: string): string {
    if a != "" then a else b
  }

  /** The value of `a || null` for strings. */
  function OrNull(a: string): Option<string> {
    if a != "" then Some(a) else None
  }

  const DEFAULT_NAME: string := "no-name"
  const DEFAULT_ENDPOINT: string := "LR"
  const DEFAULT_ICON: string := "fa-plug"
  const DEFAULT_BADGE_CSS: string := "badge-info"

  /**
   * A node `getNode` can produce: id, name, endpoint, icon and badge class
   * are never empty, the badge fields are null or non-empty, and the
   * position is unset.
   */
  predicate Normalised(n: Node) {
    && n.id != "" && n.name != "" && n.endpoint != "" && n.icon != "" && n.badgeCssClass != ""
    && n.badgeInfo != Some("") && n.badgeTooltip != Some("")
    && n.uiPosition == Position("", "")
  }

  /**
   * `getNode`: fills defaults for falsy fields; `freshId` is the id
   * `uuid.v4()` would return when the spec carries none.
   */
  function GetNode(spec: NodeSpec, freshId: string): (r: Node)
    ensures freshId != "" ==> Normalised(r)
    ensures spec.id != "" ==> r.id == spec.id
    ensures spec.id == "" ==> r.id == freshId
    ensures spec.name != "" ==> r.name == spec.name
    ensures spec.name == "" ==> r.name == DEFAULT_NAME
    ensures spec.endpoint != "" ==> r.endpoint == spec.endpoint
    ensures spec.endpoint == "" ==> r.endpoint == DEFAULT_ENDPOINT
    ensures spec.icon != "" ==> r.icon == spec.icon
    ensures spec.icon == "" ==> r.icon == DEFAULT_ICON
    ensures spec.badgeInfo != "" ==> r.badgeInfo == Some(spec.badgeInfo)
    ensures spec.badgeInfo == "" ==> r.badgeInfo == None
    ensures spec.badgeCssClass != "" ==> r.badgeCssClass == spec.badgeCssClass
    ensures spec.badgeCssClass == "" ==> r.badgeCssClass == DEFAULT_BADGE_CSS
    ensures spec.badgeTooltip != "" ==> r.badgeTooltip == Some(spec.badgeTooltip)
    ensures spec.badgeTooltip == "" ==> r.badgeTooltip == None
    ensures r.uiPosition == Position("", "")
    ensures r.cssClass == spec.cssClass && r.tooltipCssClass == spec.tooltipCssClass
    ensures r.disabled == spec.disabled && r.selected == spec.selected && r.nodeType == spec.nodeType
  {
    Node(
      id := Or(spec.id, freshId),
      name := Or(spec.name, DEFAULT_NAME),
      endpoint := Or(spec.endpoint, DEFAULT_ENDPOINT),
      icon := Or(spec.icon, DEFAULT_ICON),
      cssClass := spec.cssClass,
      badgeInfo := OrNull(spec.badgeInfo),
      badgeCssClass := Or(spec.badgeCssClass, DEFAULT_BADGE_CSS),
      badgeTooltip := OrNull(spec.badgeTooltip),
      tooltipCssClass := spec.tooltipCssClass,
      disabled := spec.disabled,
      selected := spec.selected,
      nodeType := spec.nodeType,
      uiPosition := Position("", ""))
  }

  /** A stored node read back as a spec (null badges become falsy). */
  function AsSpec(n: Node): NodeSpec {
    NodeSpec(n.id, n.name, n.endpoint, n.icon, n.cssClass,
             if n.badgeInfo.Some? then n.badgeInfo.value else "",
             n.badgeCssClass,
             if n.badgeTooltip.Some? then n.badgeTooltip.value else "",
             n.tooltipCssClass, n.disabled, n.selected, n.nodeType)
  }

  /**
   * Normalisation is exact on normalised nodes: passing one through
   * `getNode` again returns it unchanged and draws no fresh id.
   */
  lemma GetNodeFixesNormalised(n: Node, anyId: string)
    requires Normalised(n)
    ensures GetNode(AsSpec(n), anyId) == n
  {
  }

  /** Hence `getNode` is idempotent once an id has been drawn. */
  lemma GetNodeIdempotent(spec: NodeSpec, freshId: string, anyId: string)
    requires freshId != ""
    ensures GetNode(AsSpec(GetNode(spec, freshId)), anyId) == GetNode(spec, freshId)
  {
    GetNodeFixesNormalised(GetNode(spec, freshId), anyId);
  }

  /** The fields `angular.extend` copies onto a node; `None` is a field the config does not carry. */
  datatype NodeConfig = NodeConfig(
    id: Option<string>,
    name: Option<string>,
    endpoint: Option<string>,
    icon: Option<string>,
    cssClass: Option<string>,
    badgeInfo: Option<Option<string>>,
    badgeCssClass: Option<string>,
    badgeTooltip: Option<Option<string>>,
    tooltipCssClass: Option<string>,
    disabled: Option<bool>,
    selected: Option<bool>,
    nodeType: Option<Option<string>>,
    uiPosition: Option<Position>)

  const EmptyConfig: NodeConfig :=
    NodeConfig(None, None, None, None, None, None, None, None, None, None, None, None, None)

  /** The config's value when it carries the field, else the node's. */
  function Pick<T>(c: Option<T>, n: T): T {
    if c.Some? then c.value else n
  }

  /** `angular.extend(node, config)`: every field the config carries overwrites the node's. */
  function Merge(n: Node, c: NodeConfig): (r: Node)
    ensures c == EmptyConfig ==> r == n
    ensures c.id.Some? ==> r.id == c.id.value
    ensures c.id.None? ==> r.id == n.id
    ensures c.name.Some? ==> r.name == c.name.value
    ensures c.name.None? ==> r.name == n.name
    ensures c.endpoint.Some? ==> r.endpoint == c.endpoint.value
    ensures c.endpoint.None? ==> r.endpoint == n.endpoint
    ensures c.icon.Some? ==> r.icon == c.icon.value
    ensures c.icon.None? ==> r.icon == n.icon
    ensures c.cssClass.Some? ==> r.cssClass == c.cssClass.value
    ensures c.cssClass.None? ==> r.cssClass == n.cssClass
    ensures c.badgeInfo.Some? ==> r.badgeInfo == c.badgeInfo.value
    ensures c.badgeInfo.None? ==> r.badgeInfo == n.badgeInfo
    ensures c.badgeCssClass.Some? ==> r.badgeCssClass == c.badgeCssClass.value
    ensures c.badgeCssClass.None? ==> r.badgeCssClass == n.badgeCssClass
    ensures c.badgeTooltip.Some? ==> r.badgeTooltip == c.badgeTooltip.value
    ensures c.badgeTooltip.None? ==> r.badgeTooltip == n.badgeTooltip
    ensures c.tooltipCssClass.Some? ==> r.tooltipCssClass == c.tooltipCssClass.value
    ensures c.tooltipCssClass.None? ==> r.tooltipCssClass == n.tooltipCssClass
    ensures c.disabled.Some? ==> r.disabled == c.disabled.value
    ensures c.disabled.None? ==> r.disabled == n.disabled
    ensures c.selected.Some? ==> r.selected == c.selected.value
    ensures c.selected.None? ==> r.selected == n.selected
    ensures c.nodeType.Some? ==> r.nodeType == c.nodeType.value
    ensures c.nodeType.None? ==> r.nodeType == n.nodeType
    ensures c.uiPosition.Some? ==> r.uiPosition == c.uiPosition.value
    ensures c.uiPosition.None? ==> r.uiPosition == n.uiPosition
  {
    Node(
      id := Pick(c.id, n.id),
      name := Pick(c.name, n.name),
      endpoint := Pick(c.endpoint, n.endpoint),
      icon := Pick(c.icon, n.icon),
      cssClass := Pick(c.cssClass, n.cssClass),
      badgeInfo := Pick(c.badgeInfo, n.badgeInfo),
      badgeCssClass := Pick(c.badgeCssClass, n.badgeCssClass),
      badgeTooltip := Pick(c.badgeTooltip, n.badgeTooltip),
      tooltipCssClass := Pick(c.tooltipCssClass, n.tooltipCssClass),
      disabled := Pick(c.disabled, n.disabled),
      selected := Pick(c.selected, n.selected),
      nodeType := Pick(c.nodeType, n.nodeType),
      uiPosition := Pick(c.uiPosition, n.uiPosition))
  }

  /** Merging the same config twice is merging it once. */
  lemma MergeIdempotent(n: Node, c: NodeConfig)
    ensures Merge(Merge(n, c), c) == Merge(n, c)
  {
  }

  /** An edge between two nodes, as the connections list holds it. */
  datatype Connection = Connection(from: string, to: string)

  /**
   * A dispatched action: its `type` and the payload fields the reducers
   * read (each reducer reads only the ones its case needs).
   */
  datatype Action = Action(
    kind: string,
    id: string,
    node: NodeSpec,
    nodes: seq<NodeSpec>,
    config: NodeConfig,
    connections: seq<Connection>)

  const ADD_NODE: string := "ADD-NODE"
  const REMOVE_NODE: string := "REMOVE-NODE"
  const RESET_SELECTED: string := "RESET-SELECTED"
  const UPDATE_NODE: string := "UPDATE-NODE"
  const SET_NODES: string := "SET-NODES"
  const SET_CONNECTIONS: string := "SET-CONNECTIONS"
  const INIT_DAG: string := "INIT-DAG"
  const RESET_INIT_DAG: string := "RESET-INIT-DAG"
  const DISABLE_DAG: string := "DISABLE-DAG"
  const ENABLE_DAG: string := "ENABLE-DAG"

  /** The ids of a node list. */
  function Ids(s: seq<Node>): seq<string> {
    seq(|s|, i requires 0 <= i < |s| => s[i].id)
  }

  /** `ADD-NODE`: the normalised node is appended after the existing ones. */
  function AddNode(s: seq<Node>, spec: NodeSpec, freshId: string): (r: seq<Node>)
    ensures |r| == |s| + 1 && r[..|s|] == s
    ensures r[|s|] == GetNode(spec, freshId)
  {
    s + [GetNode(spec, freshId)]
  }

  /** `REMOVE-NODE`: keeps, in order, the nodes whose id differs. */
  function RemoveNode(s: seq<Node>, id: string): (r: seq<Node>)
    ensures |r| <= |s|
    ensures forall i :: 0 <= i < |r| ==> r[i].id != id
    decreases |s|
  {
    if s == [] then []
    else (if s[0].id != id then [s[0]] else []) + RemoveNode(s[1..], id)
  }

  /** A node stays if and only if it was there and has another id. */
  lemma {:induction false} RemoveNodeMembers(s: seq<Node>, id: string)
    ensures forall n :: n in RemoveNode(s, id) <==> n in s && n.id != id
    decreases |s|
  {
    if s != [] {
      RemoveNodeMembers(s[1..], id);
      assert forall n :: n in s <==> n == s[0] || n in s[1..];
    }
  }

  /** Removing drops nothing when no node has the id. */
  lemma {:induction false} RemoveNodeAbsent(s: seq<Node>, id: string)
    requires forall i :: 0 <= i < |s| ==> s[i].id != id
    ensures RemoveNode(s, id) == s
    decreases |s|
  {
    if s != [] {
      RemoveNodeAbsent(s[1..], id);
      assert [s[0]] + s[1..] == s;
    }
  }

  /** Removing distributes over concatenation. */
  lemma {:induction false} RemoveNodeAppend(a: seq<Node>, b: seq<Node>, id: string)
    ensures RemoveNode(a + b, id) == RemoveNode(a, id) + RemoveNode(b, id)
    decreases |a|
  {
    if a == [] {
      assert a + b == b;
    } else {
      assert (a + b)[1..] == a[1..] + b;
      RemoveNodeAppend(a[1..], b, id);
    }
  }

  /** Removing the same id twice is removing it once. */
  lemma RemoveNodeIdempotent(s: seq<Node>, id: string)
    ensures RemoveNode(RemoveNode(s, id), id) == RemoveNode(s, id)
  {
    RemoveNodeAbsent(RemoveNode(s, id), id);
  }

  /**
   * Removing a node just added restores the list, whether its id came with
   * the spec or was drawn fresh, provided no node already had that id.
   */
  lemma AddThenRemove(s: seq<Node>, spec: NodeSpec, freshId: string)
    requires forall i :: 0 <= i < |s| ==> s[i].id != GetNode(spec, freshId).id
    ensures RemoveNode(AddNode(s, spec, freshId), GetNode(spec, freshId).id) == s
  {
    var n := GetNode(spec, freshId);
    RemoveNodeAppend(s, [n], n.id);
    RemoveNodeAbsent(s, n.id);
    assert [n][1..] == [];
  }

  /** `RESET-SELECTED`: every node is deselected; nothing else changes. */
  function ResetSelected(s: seq<Node>): (r: seq<Node>)
    ensures |r| == |s|
    ensures forall i :: 0 <= i < |s| ==> !r[i].selected && r[i] == s[i].(selected := false)
    ensures Ids(r) == Ids(s)
  {
    seq(|s|, i requires 0 <= i < |s| => s[i].(selected := false))
  }

  /** Deselecting everything twice is deselecting it once. */
  lemma ResetSelectedIdempotent(s: seq<Node>)
    ensures ResetSelected(ResetSelected(s)) == ResetSelected(s)
  {
  }

  /** The index of the first node with the given id, if any. */
  function FirstIndex(s: seq<Node>, id: string): (r: Option<nat>)
    ensures r.None? <==> forall i :: 0 <= i < |s| ==> s[i].id != id
    ensures r.Some? ==> r.value < |s| && s[r.value].id == id &&
                        forall i :: 0 <= i < r.value ==> s[i].id != id
    decreases |s|
  {
    if s == [] then None
    else if s[0].id == id then Some(0)
    else match FirstIndex(s[1..], id)
      case None => None
      case Some(j) => Some(j + 1)
  }

  /**
   * `UPDATE-NODE`: the config is merged into the first node with the id,
   * in place; with no such node the list is returned as it was.
   */
  function UpdateNode(s: seq<Node>, id: string, c: NodeConfig): (r: seq<Node>)
    ensures |r| == |s|
    ensures (forall i :: 0 <= i < |s| ==> s[i].id != id) ==> r == s
  {
    match FirstIndex(s, id)
    case None => s
    case Some(i) => s[i := Merge(s[i], c)]
  }

  /**
   * Exactly one node changes: the first whose id matches gets the config's
   * fields, and every node before and after it is untouched.
   */
  lemma UpdateNodeFirstMatch(s: seq<Node>, id: string, c: NodeConfig, k: nat)
    requires k < |s| && s[k].id == id
    requires forall i :: 0 <= i < k ==> s[i].id != id
    ensures UpdateNode(s, id, c)[k] == Merge(s[k], c)
    ensures forall i :: 0 <= i < |s| && i != k ==> UpdateNode(s, id, c)[i] == s[i]
  {
    var f := FirstIndex(s, id);
    assert f.Some?;
    assert f.value == k;
  }

  /** Repeating an update that does not change the id changes nothing more. */
  lemma UpdateNodeIdempotent(s: seq<Node>, id: string, c: NodeConfig)
    requires c.id.None? || c.id == Some(id)
    ensures UpdateNode(UpdateNode(s, id, c), id, c) == UpdateNode(s, id, c)
  {
    var r := UpdateNode(s, id, c);
    match FirstIndex(s, id)
    case None =>
    case Some(k) =>
      UpdateNodeFirstMatch(s, id, c, k);
      assert r[k].id == id;
      UpdateNodeFirstMatch(r, id, c, k);
      assert UpdateNode(r, id, c) == r;
  }

  /**
   * `SET-NODES`: the list is replaced by the given specs, each normalised;
   * `uuid(i)` is the id drawn for the i-th spec when it carries none.
   */
  function SetNodes(specs: seq<NodeSpec>, uuid: nat -> string): (r: seq<Node>)
    ensures |r| == |specs|
    ensures forall i :: 0 <= i < |specs| ==> r[i] == GetNode(specs[i], uuid(i))
    ensures (forall i: nat :: uuid(i) != "") ==> forall i :: 0 <= i < |r| ==> Normalised(r[i])
  {
    seq(|specs|, i requires 0 <= i < |specs| => GetNode(specs[i], uuid(i)))
  }

  /** Setting a list of normalised nodes back as specs reproduces it. */
  lemma SetNodesRoundTrip(s: seq<Node>, uuid: nat -> string)
    requires forall i :: 0 <= i < |s| ==> Normalised(s[i])
    ensures SetNodes(seq(|s|, i requires 0 <= i < |s| => AsSpec(s[i])), uuid) == s
  {
    var specs := seq(|s|, i requires 0 <= i < |s| => AsSpec(s[i]));
    forall i | 0 <= i < |s| ensures SetNodes(specs, uuid)[i] == s[i] {
      GetNodeFixesNormalised(s[i], uuid(i));
    }
  }

  /**
   * The `nodes` reducer. `uuid(i)` is the i-th id `uuid.v4()` would return
   * during this action.
   */
  function Nodes(s: seq<Node>, a: Action, uuid: nat -> string): (r: seq<Node>)
    ensures a.kind !in {ADD_NODE, REMOVE_NODE, RESET_SELECTED, UPDATE_NODE, SET_NODES} ==> r == s
    ensures a.kind == ADD_NODE ==> |r| == |s| + 1 && r[..|s|] == s && r[|s|] == GetNode(a.node, uuid(0))
    ensures a.kind == REMOVE_NODE ==> forall i :: 0 <= i < |r| ==> r[i].id != a.id
    ensures a.kind == RESET_SELECTED || a.kind == UPDATE_NODE ==> |r| == |s|
    ensures a.kind == SET_NODES ==> |r| == |a.nodes| && forall i :: 0 <= i < |r| ==> r[i] == GetNode(a.nodes[i], uuid(i))
  {
    if a.kind == ADD_NODE then AddNode(s, a.node, uuid(0))
    else if a.kind == REMOVE_NODE then RemoveNode(s, a.id)
    else if a.kind == RESET_SELECTED then ResetSelected(s)
    else if a.kind == UPDATE_NODE then UpdateNode(s, a.id, a.config)
    else if a.kind == SET_NODES then SetNodes(a.nodes, uuid)
    else s
  }

  /** The nodes a REMOVE-NODE action leaves are the other-id ones. */
  lemma NodesRemoveMembers(s: seq<Node>, a: Action, uuid: nat -> string)
    requires a.kind == REMOVE_NODE
    ensures forall n :: n in Nodes(s, a, uuid) <==> n in s && n.id != a.id
  {
    RemoveNodeMembers(s, a.id);
  }

  /** The `connections` reducer: SET-CONNECTIONS replaces the list. */
  function Connections(s: seq<Connection>, a: Action): (r: seq<Connection>)
    ensures a.kind == SET_CONNECTIONS ==> r == a.connections
    ensures a.kind != SET_CONNECTIONS ==> r == s
  {
    if a.kind == SET_CONNECTIONS then a.connections else s
  }

  /** Dispatching the same action to `connections` twice is dispatching it once. */
  lemma ConnectionsIdempotent(s: seq<Connection>, a: Action)
    ensures Connections(Connections(s, a), a) == Connections(s, a)
  {
  }

  /** The `isDagInitialized` reducer. */
  function IsDagInitialized(state: bool, a: Action): (r: bool)
    ensures r <==> a.kind == INIT_DAG || (state && a.kind != RESET_INIT_DAG)
  {
    if a.kind == INIT_DAG then true
    else if a.kind == RESET_INIT_DAG then false
    else state
  }

  /** The `isDisabled` reducer. */
  function IsDisabled(state: bool, a: Action): (r: bool)
    ensures r <==> a.kind == DISABLE_DAG || (state && a.kind != ENABLE_DAG)
  {
    if a.kind == DISABLE_DAG then true
    else if a.kind == ENABLE_DAG then false
    else state
  }

  /** `isDagInitialized` after a history of actions, oldest first. */
  function DagInitializedAfter(state: bool, acts: seq<Action>): bool
    decreases |acts|
  {
    if acts == [] then state
    else IsDagInitialized(DagInitializedAfter(state, acts[..|acts| - 1]), acts[|acts| - 1])
  }

  /** `isDisabled` after a history of actions, oldest first. */
  function DisabledAfter(state: bool, acts: seq<Action>): bool
    decreases |acts|
  {
    if acts == [] then state
    else IsDisabled(DisabledAfter(state, acts[..|acts| - 1]), acts[|acts| - 1])
  }

  /**
   * A flag driven by `on` and `off` actions is set after a history exactly
   * when some `on` has no `off` after it, or it started set and no `off`
   * came.
   */
  ghost predicate LatchedOn(state: bool, acts: seq<Action>, on: string, off: string) {
    || (exists i :: 0 <= i < |acts| && acts[i].kind == on &&
                    forall j :: i < j < |acts| ==> acts[j].kind != off)
    || (state && forall j :: 0 <= j < |acts| ==> acts[j].kind != off)
  }

  /** The last INIT-DAG or RESET-INIT-DAG decides `isDagInitialized`. */
  lemma {:induction false} DagInitializedLastWins(state: bool, acts: seq<Action>)
    ensures DagInitializedAfter(state, acts) <==> LatchedOn(state, acts, INIT_DAG, RESET_INIT_DAG)
    decreases |acts|
  {
    if acts != [] {
      var init := acts[..|acts| - 1];
      var a := acts[|acts| - 1];
      DagInitializedLastWins(state, init);
      assert forall j :: 0 <= j < |init| ==> init[j] == acts[j];
      if a.kind == INIT_DAG {
        assert LatchedOn(state, acts, INIT_DAG, RESET_INIT_DAG);
      } else if a.kind == RESET_INIT_DAG {
        assert !LatchedOn(state, acts, INIT_DAG, RESET_INIT_DAG);
      } else if LatchedOn(state, init, INIT_DAG, RESET_INIT_DAG) {
        assert LatchedOn(state, acts, INIT_DAG, RESET_INIT_DAG);
      } else {
        assert !LatchedOn(state, acts, INIT_DAG, RESET_INIT_DAG) by {
          forall i | 0 <= i < |acts| && acts[i].kind == INIT_DAG
            ensures exists j :: i < j < |acts| && acts[j].kind == RESET_INIT_DAG
          {
            assert i < |init|;
          }
        }
      }
    }
  }

  /** The last DISABLE-DAG or ENABLE-DAG decides `isDisabled`. */
  lemma {:induction false} DisabledLastWins(state: bool, acts: seq<Action>)
    ensures DisabledAfter(state, acts) <==> LatchedOn(state, acts, DISABLE_DAG, ENABLE_DAG)
    decreases |acts|
  {
    if acts != [] {
      var init := acts[..|acts| - 1];
      var a := acts[|acts| - 1];
      DisabledLastWins(state, init);
      assert forall j :: 0 <= j < |init| ==> init[j] == acts[j];
      if a.kind == DISABLE_DAG {
        assert LatchedOn(state, acts, DISABLE_DAG, ENABLE_DAG);
      } else if a.kind == ENABLE_DAG {
        assert !LatchedOn(state, acts, DISABLE_DAG, ENABLE_DAG);
      } else if LatchedOn(state, init, DISABLE_DAG, ENABLE_DAG) {
        assert LatchedOn(state, acts, DISABLE_DAG, ENABLE_DAG);
      } else {
        assert !LatchedOn(state, acts, DISABLE_DAG, ENABLE_DAG) by {
          forall i | 0 <= i < |acts| && acts[i].kind == DISABLE_DAG
            ensures exists j :: i < j < |acts| && acts[j].kind == ENABLE_DAG
          {
            assert i < |init|;
          }
        }
      }
    }
  }
}

=== FILE: durability.dfy ===
/**
 * What the overlay buys: while every call commits, the table mirrors the
 * engine (`Synced`), and replaying a mirrored table into a fresh engine
 * rebuilds the same jobs, triggers and trigger states.
 */
module Durability {
  import opened Results
  import opened ScheduleTypes
  import opened ScheduleTable
  import opened RamEngine
  import opened Recovery
  import ScheduleStore

  /**
   * Storing jobs that all agree with `m` adds exactly their keys, each bound
   * to its entry of `m`; the rest of the engine is untouched.
   */
  lemma {:induction false} ReplayJobs(e: Engine, jobs: seq<JobDetail>, m: map<JobKey, JobDetail>)
    requires forall j :: j in jobs ==> j.key in m && m[j.key] == j
    ensures var p := ApplyCalls(e, JobCalls(jobs));
            && p.outcome == Success(())
            && p.engine.triggers == e.triggers && p.engine.states == e.states
            && p.engine.pausedGroups == e.pausedGroups
            && p.engine.jobs.Keys == e.jobs.Keys + JobKeys(jobs)
            && forall k :: k in p.engine.jobs ==> p.engine.jobs[k] == (if k in JobKeys(jobs) then m[k] else e.jobs[k])
    decreases |jobs|
  {
    if jobs != [] {
      var calls := JobCalls(jobs);
      assert calls[0] == StoreJobCall(jobs[0], true);
      assert calls[1..] == JobCalls(jobs[1..]);
      var e1 := e.(jobs := e.jobs[jobs[0].key := jobs[0]]);
      assert ApplyCalls(e, calls) == ApplyCalls(e1, JobCalls(jobs[1..]));
      ReplayJobs(e1, jobs[1..], m);
      assert JobKeys(jobs) == {jobs[0].key} + JobKeys(jobs[1..]) by {
        assert forall j :: j in jobs <==> j == jobs[0] || j in jobs[1..];
      }
    } else {
      assert JobKeys(jobs) == {};
    }
  }

  /** Replaying one NORMAL or PAUSED record into an engine without paused groups. */
  lemma ReplayStatus(e: Engine, ts: TriggerStatus)
    requires e.pausedGroups == {} && ts.trigger.jobKey in e.jobs && Replayable(ts.state)
    ensures ApplyCalls(e, StatusCalls(ts)) ==
              Partial(Success(()), e.(triggers := e.triggers[ts.trigger.key := ts.trigger],
                                      states := e.states[ts.trigger.key := ts.state]))
  {
    var k := ts.trigger.key;
    var e1 := e.(triggers := e.triggers[k := ts.trigger], states := e.states[k := NORMAL]);
    assert StoreTrigger(e, ts.trigger, true) == Success(e1);
    if ts.state == PAUSED {
      var calls := [StoreTriggerCall(ts.trigger, true), PauseCall(k)];
      assert StatusCalls(ts) == calls;
      assert calls[1..] == [PauseCall(k)];
      assert ApplyCalls(e, calls) == ApplyCalls(e1, [PauseCall(k)]);
      var e2 := Pause(e1, k);
      assert e2 == e1.(states := e.states[k := PAUSED]);
      assert [PauseCall(k)][1..] == [];
      assert ApplyCalls(e1, [PauseCall(k)]) == ApplyCalls(e2, []);
    } else {
      var calls := [StoreTriggerCall(ts.trigger, true)];
      assert StatusCalls(ts) == calls;
      assert calls[1..] == [];
      assert ApplyCalls(e, calls) == ApplyCalls(e1, []);
    }
  }

  /** The trigger map after storing each record's trigger in turn. */
  function StoreEach(m: map<TriggerKey, Trigger>, statuses: seq<TriggerStatus>): map<TriggerKey, Trigger>
    decreases |statuses|
  {
    if statuses == [] then m
    else StoreEach(m[statuses[0].trigger.key := statuses[0].trigger], statuses[1..])
  }

  /** The state map after recording each record's state in turn. */
  function StateEach(m: map<TriggerKey, TriggerState>, statuses: seq<TriggerStatus>): map<TriggerKey, TriggerState>
    decreases |statuses|
  {
    if statuses == [] then m
    else StateEach(m[statuses[0].trigger.key := statuses[0].state], statuses[1..])
  }

  /**
   * Replaying NORMAL and PAUSED records whose jobs are present, into an
   * engine without paused groups, never fails and installs each record's
   * trigger with the recorded state.
   */
  lemma {:induction false} ReplayTriggers(e: Engine, statuses: seq<TriggerStatus>)
    requires e.pausedGroups == {}
    requires forall ts :: ts in statuses ==> ts.trigger.jobKey in e.jobs && Replayable(ts.state)
    ensures ApplyCalls(e, TriggerCalls(statuses)) ==
              Partial(Success(()), e.(triggers := StoreEach(e.triggers, statuses),
                                      states := StateEach(e.states, statuses)))
    decreases |statuses|
  {
    if statuses != [] {
      var ts := statuses[0];
      var rest := statuses[1..];
      var k := ts.trigger.key;
      ApplyCallsAppend(e, StatusCalls(ts), TriggerCalls(rest));
      ReplayStatus(e, ts);
      var e1 := e.(triggers := e.triggers[k := ts.trigger], states := e.states[k := ts.state]);
      assert forall x :: x in rest ==> x in statuses;
      ReplayTriggers(e1, rest);
    }
  }

  /** With records that agree with `mt`, storing them adds exactly their keys, bound as in `mt`. */
  lemma {:induction false} StoreEachAgrees(m: map<TriggerKey, Trigger>, statuses: seq<TriggerStatus>,
                                           mt: map<TriggerKey, Trigger>)
    requires forall ts :: ts in statuses ==> ts.trigger.key in mt && mt[ts.trigger.key] == ts.trigger
    ensures StoreEach(m, statuses).Keys == m.Keys + TriggerKeys(statuses)
    ensures forall k :: k in StoreEach(m, statuses) ==>
              StoreEach(m, statuses)[k] == (if k in TriggerKeys(statuses) then mt[k] else m[k])
    decreases |statuses|
  {
    if statuses == [] {
      assert TriggerKeys(statuses) == {};
    } else {
      var ts := statuses[0];
      assert forall x :: x in statuses[1..] ==> x in statuses;
      StoreEachAgrees(m[ts.trigger.key := ts.trigger], statuses[1..], mt);
      assert TriggerKeys(statuses) == {ts.trigger.key} + TriggerKeys(statuses[1..]) by {
        assert forall x :: x in statuses <==> x == ts || x in statuses[1..];
      }
    }
  }

  /** With records that agree with `ms`, recording them adds exactly their keys, bound as in `ms`. */
  lemma {:induction false} StateEachAgrees(m: map<TriggerKey, TriggerState>, statuses: seq<TriggerStatus>,
                                           ms: map<TriggerKey, TriggerState>)
    requires forall ts :: ts in statuses ==> ts.trigger.key in ms && ms[ts.trigger.key] == ts.state
    ensures StateEach(m, statuses).Keys == m.Keys + TriggerKeys(statuses)
    ensures forall k :: k in StateEach(m, statuses) ==>
              StateEach(m, statuses)[k] == (if k in TriggerKeys(statuses) then ms[k] else m[k])
    decreases |statuses|
  {
    if statuses == [] {
      assert TriggerKeys(statuses) == {};
    } else {
      var ts := statuses[0];
      assert forall x :: x in statuses[1..] ==> x in statuses;
      StateEachAgrees(m[ts.trigger.key := ts.state], statuses[1..], ms);
      assert TriggerKeys(statuses) == {ts.trigger.key} + TriggerKeys(statuses[1..]) by {
        assert forall x :: x in statuses <==> x == ts || x in statuses[1..];
      }
    }
  }

  /** The blob in column `column` of the jobs row is the engine's job written under its own column. */
  ghost predicate JobRecordOk(e: Engine, b: Blob, column: string) {
    b.JobBlob? && b.job.key in e.jobs && e.jobs[b.job.key] == b.job && KeyString(b.job.key) == column
  }

  /** The blob in column `column` of the trigger row is the engine's trigger and state, under the trigger's name. */
  ghost predicate TriggerRecordOk(e: Engine, b: Blob, column: string) {
    && b.StatusBlob?
    && var k := b.status.trigger.key;
       && k in e.triggers && k in e.states
       && e.triggers[k] == b.status.trigger && e.states[k] == b.status.state
       && k.name == column
  }

  /** Every engine job has its current record under its written column. */
  ghost predicate JobsRecorded(s: ScheduleStore.Store) {
    forall k :: k in s.engine.jobs ==> JobCell(k) in s.table && s.table[JobCell(k)] == JobBlob(s.engine.jobs[k])
  }

  /** Every record in the jobs row belongs to an engine job. */
  ghost predicate JobRecordsCurrent(s: ScheduleStore.Store) {
    forall c :: Cell(JOBS_ROW, c) in s.table ==> JobRecordOk(s.engine, s.table[Cell(JOBS_ROW, c)], c)
  }

  /** Every engine trigger has its current record, with its current state, under its name. */
  ghost predicate TriggersRecorded(s: ScheduleStore.Store) {
    forall k :: k in s.engine.triggers ==>
      && k in s.engine.states && TriggerCell(k) in s.table
      && s.table[TriggerCell(k)] == StatusBlob(TriggerStatus(s.engine.triggers[k], s.engine.states[k]))
  }

  /** Every record in the trigger row belongs to an engine trigger. */
  ghost predicate TriggerRecordsCurrent(s: ScheduleStore.Store) {
    forall c :: Cell(TRIGGER_ROW, c) in s.table ==> TriggerRecordOk(s.engine, s.table[Cell(TRIGGER_ROW, c)], c)
  }

  /**
   * The table mirrors the engine: one record per job and per trigger, each
   * up to date, and no record for anything the engine does not hold.
   */
  ghost predicate Synced(s: ScheduleStore.Store) {
    JobsRecorded(s) && JobRecordsCurrent(s) && TriggersRecorded(s) && TriggerRecordsCurrent(s)
  }

  /** Reading a mirrored jobs row yields exactly the engine's jobs. */
  lemma ReadJobsOfSynced(s: ScheduleStore.Store, order: seq<string>) returns (jobs: seq<JobDetail>)
    requires Valid(s.engine) && Synced(s) && Covers(s.table, JOBS_ROW, order)
    ensures ReadJobs(s.table, order) == Success(jobs)
    ensures forall j :: j in jobs ==> j.key in s.engine.jobs && s.engine.jobs[j.key] == j
    ensures JobKeys(jobs) == s.engine.jobs.Keys
  {
    var t := s.table;
    assert forall i :: 0 <= i < |order| && Cell(JOBS_ROW, order[i]) in t ==> t[Cell(JOBS_ROW, order[i])].JobBlob? by {
      forall i | 0 <= i < |order| && Cell(JOBS_ROW, order[i]) in t
        ensures t[Cell(JOBS_ROW, order[i])].JobBlob?
      {
        assert JobRecordOk(s.engine, t[Cell(JOBS_ROW, order[i])], order[i]);
      }
    }
    jobs := ReadJobs(t, order).value;
    forall j | j in jobs ensures j.key in s.engine.jobs && s.engine.jobs[j.key] == j {
      var i :| 0 <= i < |order| && Cell(JOBS_ROW, order[i]) in t && t[Cell(JOBS_ROW, order[i])] == JobBlob(j);
      assert JobRecordOk(s.engine, t[Cell(JOBS_ROW, order[i])], order[i]);
    }
    forall k | k in s.engine.jobs ensures k in JobKeys(jobs) {
      assert JobCell(k) in t;
      var i :| 0 <= i < |order| && order[i] == KeyString(k);
      assert t[Cell(JOBS_ROW, order[i])] == JobBlob(s.engine.jobs[k]);
      assert s.engine.jobs[k] in jobs && s.engine.jobs[k].key == k;
    }
  }

  /** Reading a mirrored trigger row yields exactly the engine's triggers with their states. */
  lemma ReadTriggersOfSynced(s: ScheduleStore.Store, order: seq<string>) returns (statuses: seq<TriggerStatus>)
    requires Valid(s.engine) && Synced(s) && Covers(s.table, TRIGGER_ROW, order)
    ensures ReadTriggers(s.table, order) == Success(statuses)
    ensures forall ts :: ts in statuses ==>
              && ts.trigger.key in s.engine.triggers && s.engine.triggers[ts.trigger.key] == ts.trigger
              && ts.trigger.key in s.engine.states && s.engine.states[ts.trigger.key] == ts.state
              && Replayable(ts.state) && ts.trigger.jobKey in s.engine.jobs
    ensures TriggerKeys(statuses) == s.engine.triggers.Keys
  {
    var t := s.table;
    assert forall i :: 0 <= i < |order| && Cell(TRIGGER_ROW, order[i]) in t ==> t[Cell(TRIGGER_ROW, order[i])].StatusBlob? by {
      forall i | 0 <= i < |order| && Cell(TRIGGER_ROW, order[i]) in t
        ensures t[Cell(TRIGGER_ROW, order[i])].StatusBlob?
      {
        assert TriggerRecordOk(s.engine, t[Cell(TRIGGER_ROW, order[i])], order[i]);
      }
    }
    statuses := ReadTriggers(t, order).value;
    forall ts | ts in statuses
      ensures && ts.trigger.key in s.engine.triggers && s.engine.triggers[ts.trigger.key] == ts.trigger
              && ts.trigger.key in s.engine.states && s.engine.states[ts.trigger.key] == ts.state
    {
      var i :| 0 <= i < |order| && Cell(TRIGGER_ROW, order[i]) in t && t[Cell(TRIGGER_ROW, order[i])] == StatusBlob(ts);
      assert TriggerRecordOk(s.engine, t[Cell(TRIGGER_ROW, order[i])], order[i]);
    }
    forall k | k in s.engine.triggers ensures k in TriggerKeys(statuses) {
      assert TriggerCell(k) in t;
      var i :| 0 <= i < |order| && order[i] == k.name;
      var ts := TriggerStatus(s.engine.triggers[k], s.engine.states[k]);
      assert t[Cell(TRIGGER_ROW, order[i])] == StatusBlob(ts);
      assert Replayable(ts.state);
      assert ts in statuses;
    }
  }

  /** Replaying exactly the engine's jobs into a fresh engine rebuilds its job map. */
  lemma JobsPhase(e: Engine, jobs: seq<JobDetail>)
    requires forall j :: j in jobs ==> j.key in e.jobs && e.jobs[j.key] == j
    requires JobKeys(jobs) == e.jobs.Keys
    ensures ApplyCalls(Fresh, JobCalls(jobs)) == Partial(Success(()), Fresh.(jobs := e.jobs))
  {
    ReplayJobs(Fresh, jobs, e.jobs);
    assert ApplyCalls(Fresh, JobCalls(jobs)).engine.jobs == e.jobs;
  }

  /** Storing records that cover `mt` exactly, and agree with it, from nothing yields `mt`. */
  lemma StoreEachRebuilds(statuses: seq<TriggerStatus>, mt: map<TriggerKey, Trigger>)
    requires forall ts :: ts in statuses ==> ts.trigger.key in mt && mt[ts.trigger.key] == ts.trigger
    requires TriggerKeys(statuses) == mt.Keys
    ensures StoreEach(map[], statuses) == mt
  {
    StoreEachAgrees(map[], statuses, mt);
  }

  /** Recording states that cover `ms` exactly, and agree with it, from nothing yields `ms`. */
  lemma StateEachRebuilds(statuses: seq<TriggerStatus>, ms: map<TriggerKey, TriggerState>)
    requires forall ts :: ts in statuses ==> ts.trigger.key in ms && ms[ts.trigger.key] == ts.state
    requires TriggerKeys(statuses) == ms.Keys
    ensures StateEach(map[], statuses) == ms
  {
    StateEachAgrees(map[], statuses, ms);
  }

  /** Replaying exactly the engine's jobs and trigger records into a fresh engine rebuilds it. */
  lemma ReplayRebuilds(e: Engine, jobs: seq<JobDetail>, statuses: seq<TriggerStatus>)
    requires forall j :: j in jobs ==> j.key in e.jobs && e.jobs[j.key] == j
    requires JobKeys(jobs) == e.jobs.Keys
    requires forall ts :: ts in statuses ==>
               && ts.trigger.key in e.triggers && e.triggers[ts.trigger.key] == ts.trigger
               && ts.trigger.key in e.states && e.states[ts.trigger.key] == ts.state
               && Replayable(ts.state) && ts.trigger.jobKey in e.jobs
    requires TriggerKeys(statuses) == e.triggers.Keys && e.states.Keys == e.triggers.Keys
    ensures ApplyCalls(Fresh, ReplayCalls(jobs, statuses)) == Partial(Success(()), e.(pausedGroups := {}))
  {
    JobsPhase(e, jobs);
    var e1 := Fresh.(jobs := e.jobs);
    ReplayTriggers(e1, statuses);
    StoreEachRebuilds(statuses, e.triggers);
    StateEachRebuilds(statuses, e.states);
    assert e1.(triggers := e.triggers, states := e.states) == e.(pausedGroups := {});
    ApplyCallsAppend(Fresh, JobCalls(jobs), TriggerCalls(statuses));
  }

  /**
   * Restart round trip: replaying a table that mirrors the engine, with any
   * column order, rebuilds an engine with the same jobs, the same triggers
   * and the same trigger states (NORMAL or PAUSED). Only the engine's paused
   * groups, which are not persisted, start out empty.
   */
  lemma RestartRestores(s: ScheduleStore.Store, jobOrder: seq<string>, triggerOrder: seq<string>)
    requires Valid(s.engine) && Synced(s)
    requires Covers(s.table, JOBS_ROW, jobOrder) && Covers(s.table, TRIGGER_ROW, triggerOrder)
    ensures Initialize(s.table, jobOrder, triggerOrder, true) == Success(s.engine.(pausedGroups := {}))
  {
    var jobs := ReadJobsOfSynced(s, jobOrder);
    var statuses := ReadTriggersOfSynced(s, triggerOrder);
    ReplayRebuilds(s.engine, jobs, statuses);
  }

  /** No other job the engine holds writes to the column `k` writes to. */
  ghost predicate JobColumnFree(e: Engine, k: JobKey) {
    forall k' :: k' in e.jobs && k' != k ==> KeyString(k') != KeyString(k)
  }

  /** No other trigger the engine holds shares `k`'s name. */
  ghost predicate TriggerNameFree(e: Engine, k: TriggerKey) {
    forall k' :: k' in e.triggers && k' != k ==> k'.name != k.name
  }

  /** A committed `storeJob` keeps the table mirroring the engine. */
  lemma StoreJobKeepsSynced(s: ScheduleStore.Store, job: JobDetail, replace: bool)
    requires Valid(s.engine) && Synced(s) && JobColumnFree(s.engine, job.key)
    ensures var r := ScheduleStore.StoreJob(s, job, replace, true);
            Valid(r.store.engine) && Synced(r.store)
  {
    var r := ScheduleStore.StoreJob(s, job, replace, true);
    if !(job.key in s.engine.jobs && !replace) {
      var e' := r.store.engine;
      var t' := r.store.table;
      assert RamEngine.StoreJob(s.engine, job, replace) == Success(e');
      forall c | Cell(JOBS_ROW, c) in t' ensures JobRecordOk(e', t'[Cell(JOBS_ROW, c)], c) {
        if c != KeyString(job.key) {
          assert JobRecordOk(s.engine, s.table[Cell(JOBS_ROW, c)], c);
        }
      }
      forall c | Cell(TRIGGER_ROW, c) in t' ensures TriggerRecordOk(e', t'[Cell(TRIGGER_ROW, c)], c) {
        assert TriggerRecordOk(s.engine, s.table[Cell(TRIGGER_ROW, c)], c);
      }
    }
  }

  /** A committed `storeTrigger` keeps the table mirroring the engine. */
  lemma StoreTriggerKeepsSynced(s: ScheduleStore.Store, trigger: Trigger, replace: bool)
    requires Valid(s.engine) && Synced(s) && TriggerNameFree(s.engine, trigger.key)
    ensures var r := ScheduleStore.StoreTrigger(s, trigger, replace, true);
            Valid(r.store.engine) && Synced(r.store)
  {
    var r := ScheduleStore.StoreTrigger(s, trigger, replace, true);
    if !(trigger.key in s.engine.triggers && !replace) && trigger.jobKey in s.engine.jobs {
      var e' := r.store.engine;
      var t' := r.store.table;
      assert RamEngine.StoreTrigger(s.engine, trigger, replace) == Success(e');
      assert t' == s.table[TriggerCell(trigger.key) := StatusBlob(TriggerStatus(trigger, e'.states[trigger.key]))];
      forall c | Cell(JOBS_ROW, c) in t' ensures JobRecordOk(e', t'[Cell(JOBS_ROW, c)], c) {
        assert JobRecordOk(s.engine, s.table[Cell(JOBS_ROW, c)], c);
      }
      forall k2 | k2 in e'.triggers
        ensures k2 in e'.states && TriggerCell(k2) in t'
        ensures t'[TriggerCell(k2)] == StatusBlob(TriggerStatus(e'.triggers[k2], e'.states[k2]))
      {
        if k2 != trigger.key {
          assert TriggerCell(k2) != TriggerCell(trigger.key);
        }
      }
      forall c | Cell(TRIGGER_ROW, c) in t' ensures TriggerRecordOk(e', t'[Cell(TRIGGER_ROW, c)], c) {
        if c != trigger.key.name {
          assert TriggerRecordOk(s.engine, s.table[Cell(TRIGGER_ROW, c)], c);
        }
      }
    }
  }

  /**
   * Rewriting a present trigger's record with a new NORMAL or PAUSED state,
   * together with the same state change in the engine, keeps the mirror.
   */
  lemma RewriteKeepsSynced(s: ScheduleStore.Store, k: TriggerKey, st: TriggerState)
    requires Valid(s.engine) && Synced(s) && TriggerNameFree(s.engine, k)
    requires k in s.engine.triggers && Replayable(st)
    ensures var s' := ScheduleStore.Store(s.engine.(states := s.engine.states[k := st]),
                                          s.table[TriggerCell(k) := StatusBlob(TriggerStatus(s.engine.triggers[k], st))]);
            Valid(s'.engine) && Synced(s')
  {
    var e' := s.engine.(states := s.engine.states[k := st]);
    var t' := s.table[TriggerCell(k) := StatusBlob(TriggerStatus(s.engine.triggers[k], st))];
    var s' := ScheduleStore.Store(e', t');
    assert JobsRecorded(s');
    forall c | Cell(JOBS_ROW, c) in t' ensures JobRecordOk(e', t'[Cell(JOBS_ROW, c)], c) {
      assert JobRecordOk(s.engine, s.table[Cell(JOBS_ROW, c)], c);
    }
    forall k2 | k2 in e'.triggers
      ensures k2 in e'.states && TriggerCell(k2) in t'
      ensures t'[TriggerCell(k2)] == StatusBlob(TriggerStatus(e'.triggers[k2], e'.states[k2]))
    {
      if k2 != k {
        assert TriggerCell(k2) != TriggerCell(k);
      }
    }
    forall c | Cell(TRIGGER_ROW, c) in t' ensures TriggerRecordOk(e', t'[Cell(TRIGGER_ROW, c)], c) {
      if c != k.name {
        assert TriggerRecordOk(s.engine, s.table[Cell(TRIGGER_ROW, c)], c);
      }
    }
  }

  /** With the mirror in place, no record sits under the name of a trigger the engine does not hold. */
  lemma NoRecordForUnknownTrigger(s: ScheduleStore.Store, k: TriggerKey)
    requires Synced(s) && TriggerNameFree(s.engine, k) && k !in s.engine.triggers
    ensures TriggerCell(k) !in s.table
  {
    assert TriggerCell(k) in s.table ==> TriggerRecordOk(s.engine, s.table[TriggerCell(k)], k.name);
  }

  /** A committed `pauseTrigger` keeps the table mirroring the engine. */
  lemma PauseKeepsSynced(s: ScheduleStore.Store, k: TriggerKey)
    requires Valid(s.engine) && Synced(s) && TriggerNameFree(s.engine, k)
    ensures var r := ScheduleStore.PauseTrigger(s, k, true);
            r.result.Success? && Valid(r.store.engine) && Synced(r.store)
  {
    if k in s.engine.triggers {
      assert s.table[TriggerCell(k)] == StatusBlob(TriggerStatus(s.engine.triggers[k], s.engine.states[k]));
      RewriteKeepsSynced(s, k, PAUSED);
    } else {
      NoRecordForUnknownTrigger(s, k);
    }
  }

  /** A committed `resumeTrigger` keeps the table mirroring the engine. */
  lemma ResumeKeepsSynced(s: ScheduleStore.Store, k: TriggerKey)
    requires Valid(s.engine) && Synced(s) && TriggerNameFree(s.engine, k)
    ensures var r := ScheduleStore.ResumeTrigger(s, k, true);
            r.result.Success? && Valid(r.store.engine) && Synced(r.store)
  {
    if k in s.engine.triggers {
      var prev := s.engine.states[k];
      assert s.table[TriggerCell(k)] == StatusBlob(TriggerStatus(s.engine.triggers[k], prev));
      RewriteKeepsSynced(s, k, NORMAL);
      if prev == NORMAL {
        assert s.engine.states[k := NORMAL] == s.engine.states;
      }
    } else {
      NoRecordForUnknownTrigger(s, k);
    }
  }

  /** A committed `removeTrigger` keeps the table mirroring the engine. */
  lemma RemoveTriggerKeepsSynced(s: ScheduleStore.Store, k: TriggerKey)
    requires Valid(s.engine) && Synced(s) && TriggerNameFree(s.engine, k)
    ensures var r := ScheduleStore.RemoveTrigger(s, k, true);
            Valid(r.store.engine) && Synced(r.store)
  {
    var r := ScheduleStore.RemoveTrigger(s, k, true);
    var e' := r.store.engine;
    var t' := r.store.table;
    assert t' == s.table - {TriggerCell(k)};
    assert JobsRecorded(r.store);
    forall c | Cell(JOBS_ROW, c) in t' ensures JobRecordOk(e', t'[Cell(JOBS_ROW, c)], c) {
      assert JobRecordOk(s.engine, s.table[Cell(JOBS_ROW, c)], c);
    }
    forall k2 | k2 in e'.triggers
      ensures k2 in e'.states && TriggerCell(k2) in t'
      ensures t'[TriggerCell(k2)] == StatusBlob(TriggerStatus(e'.triggers[k2], e'.states[k2]))
    {
      assert TriggerCell(k2) != TriggerCell(k);
    }
    forall c | Cell(TRIGGER_ROW, c) in t' ensures TriggerRecordOk(e', t'[Cell(TRIGGER_ROW, c)], c) {
      assert TriggerRecordOk(s.engine, s.table[Cell(TRIGGER_ROW, c)], c);
    }
  }

  /** No trigger of job `k` shares its name with another trigger the engine holds. */
  ghost predicate CascadeFree(e: Engine, k: JobKey) {
    forall tk :: tk in TriggersOf(e, k) ==> TriggerNameFree(e, tk)
  }

  /**
   * Removing held, unaliased triggers from the engine together with their
   * records keeps the table mirroring the engine.
   */
  lemma DropTriggersKeepsSynced(s: ScheduleStore.Store, ks: set<TriggerKey>)
    requires Valid(s.engine) && Synced(s)
    requires forall tk :: tk in ks ==> tk in s.engine.triggers && TriggerNameFree(s.engine, tk)
    ensures var s1 := ScheduleStore.Store(s.engine.(triggers := s.engine.triggers - ks, states := s.engine.states - ks),
                                          s.table - TriggerCells(ks));
            Valid(s1.engine) && Synced(s1)
  {
    var e1 := s.engine.(triggers := s.engine.triggers - ks, states := s.engine.states - ks);
    var t1 := s.table - TriggerCells(ks);
    var s1 := ScheduleStore.Store(e1, t1);
    forall k | k in e1.jobs ensures JobCell(k) in t1 && t1[JobCell(k)] == JobBlob(e1.jobs[k]) {
      assert JobCell(k) !in TriggerCells(ks);
    }
    forall c | Cell(JOBS_ROW, c) in t1 ensures JobRecordOk(e1, t1[Cell(JOBS_ROW, c)], c) {
      assert JobRecordOk(s.engine, s.table[Cell(JOBS_ROW, c)], c);
    }
    forall k2 | k2 in e1.triggers
      ensures k2 in e1.states && TriggerCell(k2) in t1
      ensures t1[TriggerCell(k2)] == StatusBlob(TriggerStatus(e1.triggers[k2], e1.states[k2]))
    {
      forall tk | tk in ks ensures tk.name != k2.name {
        assert TriggerNameFree(s.engine, tk);
      }
      assert TriggerCell(k2) !in TriggerCells(ks);
    }
    forall c | Cell(TRIGGER_ROW, c) in t1 ensures TriggerRecordOk(e1, t1[Cell(TRIGGER_ROW, c)], c) {
      assert TriggerRecordOk(s.engine, s.table[Cell(TRIGGER_ROW, c)], c);
      var kk := s.table[Cell(TRIGGER_ROW, c)].status.trigger.key;
      assert TriggerCell(kk) == Cell(TRIGGER_ROW, c);
      assert kk !in ks;
    }
  }

  /** The stores after the engine part of `removeJob` and the cascade's record deletes. */
  function Cascaded(s: ScheduleStore.Store, k: JobKey): ScheduleStore.Store {
    var gone := TriggersOf(s.engine, k);
    ScheduleStore.Store(s.engine.(triggers := s.engine.triggers - gone, states := s.engine.states - gone),
                        s.table - TriggerCells(gone))
  }

  /** The cascade alone keeps the mirror and leaves job `k` without triggers. */
  lemma CascadeKeepsSynced(s: ScheduleStore.Store, k: JobKey)
    requires Valid(s.engine) && Synced(s) && CascadeFree(s.engine, k)
    ensures Valid(Cascaded(s, k).engine) && Synced(Cascaded(s, k))
    ensures TriggersOf(Cascaded(s, k).engine, k) == {}
    ensures Cascaded(s, k).engine.jobs == s.engine.jobs
  {
    DropTriggersKeepsSynced(s, TriggersOf(s.engine, k));
  }

  /** A committed corrected `removeJob` keeps the table mirroring the engine. */
  lemma RemoveJobCorrectedKeepsSynced(s: ScheduleStore.Store, k: JobKey)
    requires Valid(s.engine) && Synced(s) && JobColumnFree(s.engine, k) && CascadeFree(s.engine, k)
    ensures var r := ScheduleStore.RemoveJobCorrected(s, k, true);
            Valid(r.store.engine) && Synced(r.store)
  {
    var r := ScheduleStore.RemoveJobCorrected(s, k, true);
    var s1 := Cascaded(s, k);
    CascadeKeepsSynced(s, k);
    assert r.store.engine == s1.engine.(jobs := s1.engine.jobs - {k});
    assert r.store.table == s1.table - {JobCell(k)};
    JobsAfterRemoval(s1, r.store, k);
    TriggersAfterRemoval(s1, r.store, k);
  }

  lemma JobsAfterRemoval(s: ScheduleStore.Store, s': ScheduleStore.Store, k: JobKey)
    requires Synced(s) && JobColumnFree(s.engine, k)
    requires s'.engine.jobs == s.engine.jobs - {k} && s'.table == s.table - {JobCell(k)}
    ensures JobsRecorded(s') && JobRecordsCurrent(s')
  {
    forall c | Cell(JOBS_ROW, c) in s'.table ensures JobRecordOk(s'.engine, s'.table[Cell(JOBS_ROW, c)], c) {
      assert JobRecordOk(s.engine, s.table[Cell(JOBS_ROW, c)], c);
    }
  }

  lemma TriggersAfterRemoval(s: ScheduleStore.Store, s': ScheduleStore.Store, k: JobKey)
    requires Valid(s.engine) && Synced(s) && TriggersOf(s.engine, k) == {}
    requires s'.engine == s.engine.(jobs := s.engine.jobs - {k}) && s'.table == s.table - {JobCell(k)}
    ensures Valid(s'.engine) && TriggersRecorded(s') && TriggerRecordsCurrent(s')
  {
    forall tk | tk in s.engine.triggers ensures s.engine.triggers[tk].jobKey != k {
      assert tk !in TriggersOf(s.engine, k);
    }
    forall c | Cell(TRIGGER_ROW, c) in s'.table ensures TriggerRecordOk(s'.engine, s'.table[Cell(TRIGGER_ROW, c)], c) {
      assert TriggerRecordOk(s.engine, s.table[Cell(TRIGGER_ROW, c)], c);
    }
  }

  /** A committed `storeJobAndTrigger` keeps the table mirroring the engine. */
  lemma StoreJobAndTriggerKeepsSynced(s: ScheduleStore.Store, job: JobDetail, trigger: Trigger)
    requires Valid(s.engine) && Synced(s)
    requires JobColumnFree(s.engine, job.key) && TriggerNameFree(s.engine, trigger.key)
    ensures var r := ScheduleStore.StoreJobAndTrigger(s, job, trigger, true, true);
            Valid(r.store.engine) && Synced(r.store)
  {
    var first := ScheduleStore.StoreJob(s, job, true, true);
    StoreJobKeepsSynced(s, job, true);
    assert first.store.engine.triggers == s.engine.triggers;
    StoreTriggerKeepsSynced(first.store, trigger, true);
  }

  /** A mutating call on the adapter, every transaction of which commits. */
  datatype Op =
    | StoreJobOp(job: JobDetail, replace: bool)
    | StoreTriggerOp(trigger: Trigger, replace: bool)
    | StoreJobAndTriggerOp(job: JobDetail, trigger: Trigger)
    | PauseOp(key: TriggerKey)
    | ResumeOp(key: TriggerKey)
    | RemoveTriggerOp(key: TriggerKey)
    | BulkStoreOp(batch: seq<(JobDetail, seq<Trigger>)>, replace: bool)

  /** A commit outcome for each of `n` transactions, all committing. */
  function AllCommit(n: nat): (r: seq<bool>)
    ensures |r| == n && forall i :: 0 <= i < n ==> r[i]
  {
    seq(n, _ => true)
  }

  /** The stores after `op`; a call the engine rejects leaves them as they were. */
  function Exec(s: ScheduleStore.Store, op: Op): ScheduleStore.Store {
    match op
    case StoreJobOp(job, replace) => ScheduleStore.StoreJob(s, job, replace, true).store
    case StoreTriggerOp(t, replace) => ScheduleStore.StoreTrigger(s, t, replace, true).store
    case StoreJobAndTriggerOp(job, t) => ScheduleStore.StoreJobAndTrigger(s, job, t, true, true).store
    case PauseOp(k) => ScheduleStore.PauseTrigger(s, k, true).store
    case ResumeOp(k) => ScheduleStore.ResumeTrigger(s, k, true).store
    case RemoveTriggerOp(k) => ScheduleStore.RemoveTrigger(s, k, true).store
    case BulkStoreOp(batch, replace) =>
      ScheduleStore.StoreJobsAndTriggers(s, batch, replace, AllCommit(|BulkCalls(batch)|)).store
  }

  /**
   * The op does not alias another key's record: a job's written column and
   * a trigger's name are not used by a different key the engine holds.
   */
  ghost predicate Admissible(e: Engine, op: Op) {
    match op
    case StoreJobOp(job, _) => JobColumnFree(e, job.key)
    case StoreTriggerOp(t, _) => TriggerNameFree(e, t.key)
    case StoreJobAndTriggerOp(job, t) => JobColumnFree(e, job.key) && TriggerNameFree(e, t.key)
    case PauseOp(k) => TriggerNameFree(e, k)
    case ResumeOp(k) => TriggerNameFree(e, k)
    case RemoveTriggerOp(k) => TriggerNameFree(e, k)
    case BulkStoreOp(batch, replace) => (!replace && Collides(e, batch)) || CallsAdmissible(e, BulkCalls(batch))
  }

  /** One engine call does not alias another key's record. */
  ghost predicate CallAdmissible(e: Engine, c: EngineCall) {
    match c
    case StoreJobCall(job, _) => JobColumnFree(e, job.key)
    case StoreTriggerCall(t, _) => TriggerNameFree(e, t.key)
    case PauseCall(k) => TriggerNameFree(e, k)
  }

  /** Every call the engine reaches is admissible in the engine it meets. */
  ghost predicate CallsAdmissible(e: Engine, calls: seq<EngineCall>)
    decreases |calls|
  {
    calls == [] ||
    (CallAdmissible(e, calls[0]) &&
     (Apply(e, calls[0]).Success? ==> CallsAdmissible(Apply(e, calls[0]).value, calls[1..])))
  }

  /**
   * Store calls issued through the overrides, every transaction committing,
   * keep the table mirroring the engine when none aliases another record.
   */
  lemma {:induction false} StoreEachKeepsSynced(s: ScheduleStore.Store, calls: seq<EngineCall>, commits: seq<bool>)
    requires Valid(s.engine) && Synced(s) && StoresOnly(calls) && CallsAdmissible(s.engine, calls)
    requires |commits| == |calls| && forall i :: 0 <= i < |commits| ==> commits[i]
    ensures var r := ScheduleStore.StoreEach(s, calls, commits);
            Valid(r.store.engine) && Synced(r.store)
    decreases |calls|
  {
    if calls != [] {
      var c := calls[0];
      var first := ScheduleStore.StoreCall(s, c, commits[0]);
      if c.StoreJobCall? {
        StoreJobKeepsSynced(s, c.job, c.replace);
      } else {
        StoreTriggerKeepsSynced(s, c.trigger, c.replace);
      }
      if first.result.Success? {
        assert StoresOnly(calls[1..]);
        StoreEachKeepsSynced(first.store, calls[1..], commits[1..]);
      }
    }
  }

  /** A committed bulk store keeps the table mirroring the engine. */
  lemma BulkStoreKeepsSynced(s: ScheduleStore.Store, batch: seq<(JobDetail, seq<Trigger>)>, replace: bool)
    requires Valid(s.engine) && Synced(s) && Admissible(s.engine, BulkStoreOp(batch, replace))
    ensures Valid(Exec(s, BulkStoreOp(batch, replace)).engine) && Synced(Exec(s, BulkStoreOp(batch, replace)))
  {
    if !(!replace && Collides(s.engine, batch)) {
      StoreEachKeepsSynced(s, BulkCalls(batch), AllCommit(|BulkCalls(batch)|));
    }
  }

  /** The stores after a history of ops, callers carrying on after a rejected call. */
  function Run(s: ScheduleStore.Store, ops: seq<Op>): ScheduleStore.Store
    decreases |ops|
  {
    if ops == [] then s else Run(Exec(s, ops[0]), ops[1..])
  }

  /** Every op of the history is admissible in the state it runs in. */
  ghost predicate AdmissibleRun(s: ScheduleStore.Store, ops: seq<Op>)
    decreases |ops|
  {
    ops == [] || (Admissible(s.engine, ops[0]) && AdmissibleRun(Exec(s, ops[0]), ops[1..]))
  }

  lemma ExecKeepsSynced(s: ScheduleStore.Store, op: Op)
    requires Valid(s.engine) && Synced(s) && Admissible(s.engine, op)
    ensures Valid(Exec(s, op).engine) && Synced(Exec(s, op))
  {
    match op
    case StoreJobOp(job, replace) => StoreJobKeepsSynced(s, job, replace);
    case StoreTriggerOp(t, replace) => StoreTriggerKeepsSynced(s, t, replace);
    case StoreJobAndTriggerOp(job, t) => StoreJobAndTriggerKeepsSynced(s, job, t);
    case PauseOp(k) => PauseKeepsSynced(s, k);
    case ResumeOp(k) => ResumeKeepsSynced(s, k);
    case RemoveTriggerOp(k) => RemoveTriggerKeepsSynced(s, k);
    case BulkStoreOp(batch, replace) => BulkStoreKeepsSynced(s, batch, replace);
  }

  /** Every admissible history of committed calls keeps the table mirroring the engine. */
  lemma {:induction false} RunKeepsSynced(s: ScheduleStore.Store, ops: seq<Op>)
    requires Valid(s.engine) && Synced(s) && AdmissibleRun(s, ops)
    ensures Valid(Run(s, ops).engine) && Synced(Run(s, ops))
    decreases |ops|
  {
    if ops != [] {
      ExecKeepsSynced(s, ops[0]);
      RunKeepsSynced(Exec(s, ops[0]), ops[1..]);
    }
  }

  /** The adapter's starting point: a fresh engine over an empty table. */
  const Empty: ScheduleStore.Store := ScheduleStore.Store(Fresh, map[])

  /**
   * Store, restart, replay: after any admissible history of committed calls
   * from an empty store, replaying the table (in any column order) rebuilds
   * exactly the engine the history produced, paused groups aside.
   */
  lemma HistoryRestores(ops: seq<Op>, jobOrder: seq<string>, triggerOrder: seq<string>)
    requires AdmissibleRun(Empty, ops)
    requires Covers(Run(Empty, ops).table, JOBS_ROW, jobOrder)
    requires Covers(Run(Empty, ops).table, TRIGGER_ROW, triggerOrder)
    ensures Initialize(Run(Empty, ops).table, jobOrder, triggerOrder, true)
              == Success(Run(Empty, ops).engine.(pausedGroups := {}))
  {
    RunKeepsSynced(Empty, ops);
    RestartRestores(Run(Empty, ops), jobOrder, triggerOrder);
  }

  /**
   * `removeTrigger` then restart: the record is gone and the rebuilt engine
   * does not hold the trigger.
   */
  lemma RemoveTriggerThenRestart(s: ScheduleStore.Store, k: TriggerKey, jobOrder: seq<string>, triggerOrder: seq<string>)
    requires Valid(s.engine) && Synced(s) && TriggerNameFree(s.engine, k)
    requires Covers(s.table, JOBS_ROW, jobOrder) && Covers(s.table, TRIGGER_ROW, triggerOrder)
    ensures var r := ScheduleStore.RemoveTrigger(s, k, true);
            && TriggerCell(k) !in r.store.table
            && Initialize(r.store.table, jobOrder, triggerOrder, true).Success?
            && k !in Initialize(r.store.table, jobOrder, triggerOrder, true).value.triggers
  {
    var r := ScheduleStore.RemoveTrigger(s, k, true);
    RemoveTriggerKeepsSynced(s, k);
    RestartRestores(r.store, jobOrder, triggerOrder);
  }

  /**
   * `removeJob` as written, then restart: the cascade deletes the job's
   * trigger records, but when no record sits at column `key.getName()` the
   * job's own record stays, and the rebuilt engine holds the removed job
   * again (without its triggers).
   */
  lemma RemoveJobResurrects(s: ScheduleStore.Store, k: JobKey, jobOrder: seq<string>, triggerOrder: seq<string>)
    requires Valid(s.engine) && Synced(s) && CascadeFree(s.engine, k)
    requires k in s.engine.jobs && JobDeleteCell(k) !in s.table
    requires Covers(s.table, JOBS_ROW, jobOrder) && Covers(s.table, TRIGGER_ROW, triggerOrder)
    ensures var r := ScheduleStore.RemoveJob(s, k, true);
            && k !in r.store.engine.jobs
            && r.store.table == s.table - TriggerCells(TriggersOf(s.engine, k))
            && Initialize(r.store.table, jobOrder, triggerOrder, true).Success?
            && k in Initialize(r.store.table, jobOrder, triggerOrder, true).value.jobs
            && TriggersOf(Initialize(r.store.table, jobOrder, triggerOrder, true).value, k) == {}
  {
    var r := ScheduleStore.RemoveJob(s, k, true);
    var s1 := Cascaded(s, k);
    CascadeKeepsSynced(s, k);
    assert r.store.table == s1.table;
    RestartRestores(s1, jobOrder, triggerOrder);
  }

  /** A concrete store in which `RemoveJobResurrects` applies: one job in the default group. */
  lemma RemoveJobResurrectsExample()
    ensures var job := JobDetail(JobKey("DEFAULT", "job1"), []);
            var s := ScheduleStore.Store(Fresh.(jobs := map[job.key := job]), map[JobCell(job.key) := JobBlob(job)]);
            && Valid(s.engine) && Synced(s) && JobDeleteCell(job.key) !in s.table
            && Covers(s.table, JOBS_ROW, ["DEFAULT.job1"]) && Covers(s.table, TRIGGER_ROW, [])
  {
    var job := JobDetail(JobKey("DEFAULT", "job1"), []);
    var s := ScheduleStore.Store(Fresh.(jobs := map[job.key := job]), map[JobCell(job.key) := JobBlob(job)]);
    assert KeyString(job.key) == "DEFAULT.job1";
    assert JobDeleteCell(job.key) != JobCell(job.key);
    assert JobRecordsCurrent(s);
  }

  /**
   * The corrected `removeJob`, then restart: the job's record and its
   * triggers' records are gone, and the rebuilt engine holds neither.
   */
  lemma RemoveJobCorrectedThenRestart(s: ScheduleStore.Store, k: JobKey, jobOrder: seq<string>, triggerOrder: seq<string>)
    requires Valid(s.engine) && Synced(s) && JobColumnFree(s.engine, k) && CascadeFree(s.engine, k)
    requires Covers(s.table, JOBS_ROW, jobOrder) && Covers(s.table, TRIGGER_ROW, triggerOrder)
    ensures var r := ScheduleStore.RemoveJobCorrected(s, k, true);
            && JobCell(k) !in r.store.table
            && Initialize(r.store.table, jobOrder, triggerOrder, true).Success?
            && k !in Initialize(r.store.table, jobOrder, triggerOrder, true).value.jobs
            && TriggersOf(Initialize(r.store.table, jobOrder, triggerOrder, true).value, k) == {}
  {
    var r := ScheduleStore.RemoveJobCorrected(s, k, true);
    RemoveJobCorrectedKeepsSynced(s, k);
    RestartRestores(r.store, jobOrder, triggerOrder);
  }

  /**
   * A committed bulk store, then restart: replaying the table rebuilds the
   * engine the engine's own bulk store produces, and when the batch is
   * accepted the rebuilt engine holds every job and trigger of it.
   */
  lemma BulkStoreThenRestart(s: ScheduleStore.Store, batch: seq<(JobDetail, seq<Trigger>)>, replace: bool,
                             jobOrder: seq<string>, triggerOrder: seq<string>)
    requires Valid(s.engine) && Synced(s) && Admissible(s.engine, BulkStoreOp(batch, replace))
    requires var r := Exec(s, BulkStoreOp(batch, replace));
             Covers(r.table, JOBS_ROW, jobOrder) && Covers(r.table, TRIGGER_ROW, triggerOrder)
    ensures var r := ScheduleStore.StoreJobsAndTriggers(s, batch, replace, AllCommit(|BulkCalls(batch)|));
            var e := Initialize(r.store.table, jobOrder, triggerOrder, true);
            && e == Success(RamEngine.StoreJobsAndTriggers(s.engine, batch, replace).engine.(pausedGroups := {}))
            && (r.result.Success? ==>
                  forall i :: 0 <= i < |batch| ==>
                    && batch[i].0.key in e.value.jobs
                    && forall t :: t in batch[i].1 ==> t.key in e.value.triggers)
  {
    var r := ScheduleStore.StoreJobsAndTriggers(s, batch, replace, AllCommit(|BulkCalls(batch)|));
    var p := RamEngine.StoreJobsAndTriggers(s.engine, batch, replace);
    assert r.store == Exec(s, BulkStoreOp(batch, replace));
    assert r.result == p.outcome && r.store.engine == p.engine;
    BulkStoreKeepsSynced(s, batch, replace);
    RestartRestores(r.store, jobOrder, triggerOrder);
    BulkStoreHoldsBatch(s.engine, batch, replace);
  }
}

=== FILE: ram_engine.dfy ===
/**
 * The in-memory scheduling engine the store adapter wraps (Quartz's
 * `RAMJobStore`), reduced to the interface the adapter relies on: a job map,
 * a trigger map with a public state per trigger, store/remove/pause/resume,
 * and a state query. Fire-time computation and dispatch are not modelled.
 */
module RamEngine {
  import opened Results
  import opened ScheduleTypes

  /**
   * Engine state. `pausedGroups` holds the trigger groups the engine keeps
   * paused; a trigger stored into one of them starts out PAUSED, which is
   * why the adapter must ask the engine for the state it persists.
   */
  datatype Engine = Engine(
    jobs: map<JobKey, JobDetail>,
    triggers: map<TriggerKey, Trigger>,
    states: map<TriggerKey, TriggerState>,
    pausedGroups: set<string>)

  /** A freshly initialized engine, as the adapter's `initialize` receives it. */
  const Fresh: Engine := Engine(map[], map[], map[], {})

  /**
   * Well-formedness the engine maintains: entries sit under their own key,
   * every trigger references a stored job, and every trigger has a state
   * (NORMAL or PAUSED, since firing is not modelled).
   */
  ghost predicate Valid(e: Engine) {
    && (forall k :: k in e.jobs ==> e.jobs[k].key == k)
    && (forall k :: k in e.triggers ==> e.triggers[k].key == k && e.triggers[k].jobKey in e.jobs)
    && e.states.Keys == e.triggers.Keys
    && (forall k :: k in e.states ==> Replayable(e.states[k]))
  }

  /** The state a newly stored trigger starts in. */
  function InitialState(e: Engine, t: Trigger): (st: TriggerState)
    ensures Replayable(st)
    ensures st == PAUSED <==> t.key.group in e.pausedGroups
  {
    if t.key.group in e.pausedGroups then PAUSED else NORMAL
  }

  /** `storeJob`: fails with AlreadyExists on a duplicate unless replacing. */
  function StoreJob(e: Engine, job: JobDetail, replace: bool): (r: Result<Engine, Error>)
    ensures r.Failure? <==> job.key in e.jobs && !replace
    ensures r.Failure? ==> r.error == AlreadyExists
    ensures r.Success? ==> && r.value.jobs == e.jobs[job.key := job]
                           && r.value.triggers == e.triggers
                           && r.value.states == e.states
                           && r.value.pausedGroups == e.pausedGroups
    ensures r.Success? && Valid(e) ==> Valid(r.value)
  {
    if job.key in e.jobs && !replace then Failure(AlreadyExists)
    else Success(e.(jobs := e.jobs[job.key := job]))
  }

  /**
   * `storeTrigger`: a duplicate without replace is rejected first, then a
   * trigger whose job is unknown; otherwise the trigger is stored (replacing
   * any previous one) in its initial state.
   */
  function StoreTrigger(e: Engine, t: Trigger, replace: bool): (r: Result<Engine, Error>)
    ensures r.Failure? <==> (t.key in e.triggers && !replace) || t.jobKey !in e.jobs
    ensures r.Failure? ==> r.error == (if t.key in e.triggers && !replace then AlreadyExists else JobNotFound)
    ensures r.Success? ==> && r.value.jobs == e.jobs
                           && r.value.triggers == e.triggers[t.key := t]
                           && r.value.states == e.states[t.key := InitialState(e, t)]
                           && r.value.pausedGroups == e.pausedGroups
    ensures r.Success? && Valid(e) ==> Valid(r.value)
  {
    if t.key in e.triggers && !replace then Failure(AlreadyExists)
    else if t.jobKey !in e.jobs then Failure(JobNotFound)
    else Success(e.(triggers := e.triggers[t.key := t], states := e.states[t.key := InitialState(e, t)]))
  }

  /** `getTriggerState`: NONE for an unknown trigger. */
  function GetTriggerState(e: Engine, k: TriggerKey): (st: TriggerState)
    ensures k !in e.triggers ==> st == NONE
    ensures Valid(e) && k in e.triggers ==> st == e.states[k] && Replayable(st)
  {
    if k in e.triggers && k in e.states then e.states[k] else NONE
  }

  /** `pauseTrigger`: no effect on an unknown or completed trigger. */
  function Pause(e: Engine, k: TriggerKey): (r: Engine)
    ensures r.jobs == e.jobs && r.triggers == e.triggers && r.pausedGroups == e.pausedGroups
    ensures k in e.triggers && GetTriggerState(e, k) != COMPLETE ==> r.states == e.states[k := PAUSED]
    ensures k !in e.triggers ==> r == e
    ensures Valid(e) ==> Valid(r)
  {
    if k !in e.triggers || GetTriggerState(e, k) == COMPLETE then e
    else e.(states := e.states[k := PAUSED])
  }

  /** `resumeTrigger`: only a paused trigger goes back to NORMAL. */
  function Resume(e: Engine, k: TriggerKey): (r: Engine)
    ensures r.jobs == e.jobs && r.triggers == e.triggers && r.pausedGroups == e.pausedGroups
    ensures GetTriggerState(e, k) == PAUSED ==> r.states == e.states[k := NORMAL]
    ensures GetTriggerState(e, k) != PAUSED ==> r == e
    ensures Valid(e) ==> Valid(r)
  {
    if GetTriggerState(e, k) == PAUSED then e.(states := e.states[k := NORMAL]) else e
  }

  /** What a removal reports and leaves behind. */
  datatype Removal = Removal(found: bool, engine: Engine)

  /** `removeTrigger`: reports whether the trigger was held. */
  function RemoveTrigger(e: Engine, k: TriggerKey): (r: Removal)
    ensures r.found <==> k in e.triggers
    ensures r.engine.triggers == e.triggers - {k} && r.engine.states == e.states - {k}
    ensures r.engine.jobs == e.jobs && r.engine.pausedGroups == e.pausedGroups
    ensures Valid(e) ==> Valid(r.engine)
  {
    Removal(k in e.triggers, e.(triggers := e.triggers - {k}, states := e.states - {k}))
  }

  /** The keys of the triggers that fire job `k`. */
  function TriggersOf(e: Engine, k: JobKey): set<TriggerKey> {
    set tk | tk in e.triggers && e.triggers[tk].jobKey == k
  }

  /** `removeJob`: removes the job together with every trigger that references it. */
  function RemoveJob(e: Engine, k: JobKey): (r: Removal)
    ensures r.found <==> k in e.jobs || TriggersOf(e, k) != {}
    ensures r.engine.jobs == e.jobs - {k}
    ensures forall tk :: tk in r.engine.triggers <==> tk in e.triggers && e.triggers[tk].jobKey != k
    ensures Valid(e) ==> Valid(r.engine)
  {
    var gone := TriggersOf(e, k);
    Removal(k in e.jobs || gone != {},
            e.(jobs := e.jobs - {k}, triggers := e.triggers - gone, states := e.states - gone))
  }

  /** One engine call, as issued by recovery or by a bulk store. */
  datatype EngineCall =
    | StoreJobCall(job: JobDetail, replace: bool)
    | StoreTriggerCall(trigger: Trigger, replace: bool)
    | PauseCall(key: TriggerKey)

  function Apply(e: Engine, c: EngineCall): Result<Engine, Error> {
    match c
    case StoreJobCall(job, replace) => StoreJob(e, job, replace)
    case StoreTriggerCall(t, replace) => StoreTrigger(e, t, replace)
    case PauseCall(k) => Success(Pause(e, k))
  }

  /** The outcome of a sequence of calls and the engine it leaves behind. */
  datatype Partial = Partial(outcome: Result<(), Error>, engine: Engine)

  /**
   * Issues the calls in order. The first rejected call ends the sequence
   * with its error; the effects of the calls before it are kept.
   */
  function ApplyCalls(e: Engine, calls: seq<EngineCall>): (r: Partial)
    ensures e.jobs.Keys <= r.engine.jobs.Keys && e.triggers.Keys <= r.engine.triggers.Keys
    ensures r.engine.pausedGroups == e.pausedGroups
    ensures Valid(e) ==> Valid(r.engine)
    ensures r.outcome.Failure? ==> r.outcome.error == AlreadyExists || r.outcome.error == JobNotFound
    decreases |calls|
  {
    if calls == [] then Partial(Success(()), e)
    else match Apply(e, calls[0])
      case Failure(err) => Partial(Failure(err), e)
      case Success(e1) => ApplyCalls(e1, calls[1..])
  }

  lemma {:induction false} ApplyCallsAppend(e: Engine, a: seq<EngineCall>, b: seq<EngineCall>)
    ensures ApplyCalls(e, a + b) ==
              (var p := ApplyCalls(e, a); if p.outcome.Failure? then p else ApplyCalls(p.engine, b))
    decreases |a|
  {
    if a != [] {
      assert (a + b)[0] == a[0];
      assert (a + b)[1..] == a[1..] + b;
      if Apply(e, a[0]).Success? {
        ApplyCallsAppend(Apply(e, a[0]).value, a[1..], b);
      }
    } else {
      assert a + b == b;
    }
  }

  /** The keys of the triggers a sequence of calls stores. */
  function StoredTriggerKeys(calls: seq<EngineCall>): set<TriggerKey>
    decreases |calls|
  {
    if calls == [] then {}
    else (if calls[0].StoreTriggerCall? then {calls[0].trigger.key} else {}) + StoredTriggerKeys(calls[1..])
  }

  lemma {:induction false} StoredTriggerKeysAppend(a: seq<EngineCall>, b: seq<EngineCall>)
    ensures StoredTriggerKeys(a + b) == StoredTriggerKeys(a) + StoredTriggerKeys(b)
    decreases |a|
  {
    if a == [] {
      assert a + b == b;
    } else {
      assert (a + b)[0] == a[0];
      assert (a + b)[1..] == a[1..] + b;
      StoredTriggerKeysAppend(a[1..], b);
    }
  }

  /**
   * Calls add no trigger they do not store, and when every call is accepted
   * each trigger they store is held at the end.
   */
  lemma {:induction false} ApplyCallsTriggerKeys(e: Engine, calls: seq<EngineCall>)
    ensures ApplyCalls(e, calls).engine.triggers.Keys <= e.triggers.Keys + StoredTriggerKeys(calls)
    ensures ApplyCalls(e, calls).outcome.Success? ==>
              e.triggers.Keys + StoredTriggerKeys(calls) <= ApplyCalls(e, calls).engine.triggers.Keys
    decreases |calls|
  {
    if calls != [] && Apply(e, calls[0]).Success? {
      ApplyCallsTriggerKeys(Apply(e, calls[0]).value, calls[1..]);
    }
  }

  /** One replacing store call per trigger, in order. */
  function TriggerStoreCalls(ts: seq<Trigger>): (calls: seq<EngineCall>)
    ensures |calls| == |ts|
    ensures forall i :: 0 <= i < |ts| ==> calls[i] == StoreTriggerCall(ts[i], true)
    ensures forall t :: t in ts ==> StoreTriggerCall(t, true) in calls
  {
    seq(|ts|, i requires 0 <= i < |ts| => StoreTriggerCall(ts[i], true))
  }

  /** A sequence of calls the engine accepts holds every job and trigger it stored. */
  lemma {:induction false} ApplyCallsStoresAll(e: Engine, calls: seq<EngineCall>)
    ensures var p := ApplyCalls(e, calls);
            p.outcome.Success? ==>
              && (forall c :: c in calls && c.StoreJobCall? ==> c.job.key in p.engine.jobs)
              && (forall c :: c in calls && c.StoreTriggerCall? ==> c.trigger.key in p.engine.triggers)
    decreases |calls|
  {
    if calls != [] && Apply(e, calls[0]).Success? {
      ApplyCallsStoresAll(Apply(e, calls[0]).value, calls[1..]);
      assert forall c :: c in calls ==> c == calls[0] || c in calls[1..];
    }
  }

  /** The calls store jobs and triggers and pause nothing. */
  predicate StoresOnly(calls: seq<EngineCall>) {
    forall i :: 0 <= i < |calls| ==> !calls[i].PauseCall?
  }

  /** The calls a bulk store issues: each job (replacing), then that job's triggers (replacing). */
  function BulkCalls(batch: seq<(JobDetail, seq<Trigger>)>): (calls: seq<EngineCall>)
    ensures |calls| >= |batch|
    ensures StoresOnly(calls)
    ensures forall i :: 0 <= i < |batch| ==> StoreJobCall(batch[i].0, true) in calls
    ensures forall i, t :: 0 <= i < |batch| && t in batch[i].1 ==> StoreTriggerCall(t, true) in calls
  {
    if batch == [] then []
    else
      assert forall i :: 1 <= i < |batch| ==> batch[i] == batch[1..][i - 1];
      [StoreJobCall(batch[0].0, true)] + TriggerStoreCalls(batch[0].1) + BulkCalls(batch[1..])
  }

  /** Every call of a bulk store replaces a job of the batch or one of that job's triggers. */
  lemma {:induction false} BulkCallsFromBatch(batch: seq<(JobDetail, seq<Trigger>)>)
    ensures forall c :: c in BulkCalls(batch) ==>
              exists i :: 0 <= i < |batch| &&
                (c == StoreJobCall(batch[i].0, true) || (c.StoreTriggerCall? && c.trigger in batch[i].1 && c.replace))
  {
    if batch != [] {
      BulkCallsFromBatch(batch[1..]);
      var head := [StoreJobCall(batch[0].0, true)] + TriggerStoreCalls(batch[0].1);
      assert BulkCalls(batch) == head + BulkCalls(batch[1..]);
      forall c | c in BulkCalls(batch)
        ensures exists i :: 0 <= i < |batch| &&
                  (c == StoreJobCall(batch[i].0, true) || (c.StoreTriggerCall? && c.trigger in batch[i].1 && c.replace))
      {
        if c in head {
          var j :| 0 <= j < |head| && head[j] == c;
          if j > 0 {
            assert c == StoreTriggerCall(batch[0].1[j - 1], true);
          }
          assert 0 <= 0 < |batch|;
        } else {
          var i :| 0 <= i < |batch[1..]| &&
                   (c == StoreJobCall(batch[1..][i].0, true) || (c.StoreTriggerCall? && c.trigger in batch[1..][i].1 && c.replace));
          assert batch[1..][i] == batch[i + 1];
        }
      }
    }
  }

  /** Whether any job or trigger of the batch is already held. */
  predicate Collides(e: Engine, batch: seq<(JobDetail, seq<Trigger>)>) {
    exists i :: 0 <= i < |batch| &&
      (batch[i].0.key in e.jobs || exists t :: t in batch[i].1 && t.key in e.triggers)
  }

  /** An accepted bulk store holds every job and trigger of the batch. */
  lemma BulkStoreHoldsBatch(e: Engine, batch: seq<(JobDetail, seq<Trigger>)>, replace: bool)
    ensures var p := StoreJobsAndTriggers(e, batch, replace);
            p.outcome.Success? ==>
              forall i :: 0 <= i < |batch| ==>
                && batch[i].0.key in p.engine.jobs
                && forall t :: t in batch[i].1 ==> t.key in p.engine.triggers
  {
    var p := StoreJobsAndTriggers(e, batch, replace);
    if p.outcome.Success? {
      var calls := BulkCalls(batch);
      assert p == ApplyCalls(e, calls);
      ApplyCallsStoresAll(e, calls);
      forall i | 0 <= i < |batch| ensures batch[i].0.key in p.engine.jobs {
        assert StoreJobCall(batch[i].0, true) in calls;
      }
      forall i, t | 0 <= i < |batch| && t in batch[i].1 ensures t.key in p.engine.triggers {
        assert StoreTriggerCall(t, true) in calls;
      }
    }
  }

  /**
   * `storeJobsAndTriggers`: without replace, any collision rejects the whole
   * batch before anything is stored; otherwise every job and trigger is
   * stored with replace.
   */
  function StoreJobsAndTriggers(e: Engine, batch: seq<(JobDetail, seq<Trigger>)>, replace: bool): (r: Partial)
    ensures !replace && Collides(e, batch) ==> r == Partial(Failure(AlreadyExists), e)
    ensures Valid(e) ==> Valid(r.engine)
  {
    if !replace && Collides(e, batch) then Partial(Failure(AlreadyExists), e)
    else ApplyCalls(e, BulkCalls(batch))
  }
}

=== FILE: recovery.dfy ===
/**
 * Recovery replay (`initialize` / `readSchedulesFromPersistentStore`): one
 * transaction reads both rows, the trigger records are filtered to the
 * replayable states, and the result is pushed into a fresh engine as a
 * sequence of engine calls: every job, then every trigger, each paused
 * trigger paused again right after it is stored.
 *
 * The table returns a row's columns in some order; that order is an input
 * here (`jobOrder`, `triggerOrder`), and columns listed without a cell are
 * skipped.
 */
module Recovery {
  import opened Results
  import opened ScheduleTypes
  import opened ScheduleTable
  import opened RamEngine

  /** `order` lists every column of row `row`: the scan reads the whole row. */
  ghost predicate Covers(t: Table, row: string, order: seq<string>) {
    forall c :: Cell(row, c) in t ==> c in order
  }

  /** Some cell of the jobs row is not a job, or some cell of the trigger row is not a trigger record. */
  ghost predicate HasCorruptCell(t: Table) {
    || (exists c :: Cell(JOBS_ROW, c) in t && !t[Cell(JOBS_ROW, c)].JobBlob?)
    || (exists c :: Cell(TRIGGER_ROW, c) in t && !t[Cell(TRIGGER_ROW, c)].StatusBlob?)
  }

  /** Deserializes the jobs row, column by column in `order`. */
  function ReadJobs(t: Table, order: seq<string>): (r: Result<seq<JobDetail>, Error>)
    ensures r.Failure? <==>
              exists i :: 0 <= i < |order| && Cell(JOBS_ROW, order[i]) in t && !t[Cell(JOBS_ROW, order[i])].JobBlob?
    ensures r.Failure? ==> r.error == Corrupt
    ensures r.Success? ==> forall j :: j in r.value <==>
              exists i :: 0 <= i < |order| && Cell(JOBS_ROW, order[i]) in t && t[Cell(JOBS_ROW, order[i])] == JobBlob(j)
    decreases |order|
  {
    if order == [] then Success([])
    else
      var c := Cell(JOBS_ROW, order[0]);
      var rest := ReadJobs(t, order[1..]);
      if c in t && !t[c].JobBlob? then Failure(Corrupt)
      else if rest.Failure? then rest
      else if c in t then Success([t[c].job] + rest.value)
      else rest
  }

  /** Deserializes the trigger row in `order`, keeping only NORMAL and PAUSED records. */
  function ReadTriggers(t: Table, order: seq<string>): (r: Result<seq<TriggerStatus>, Error>)
    ensures r.Failure? <==>
              exists i :: 0 <= i < |order| && Cell(TRIGGER_ROW, order[i]) in t && !t[Cell(TRIGGER_ROW, order[i])].StatusBlob?
    ensures r.Failure? ==> r.error == Corrupt
    ensures r.Success? ==> forall ts :: ts in r.value <==>
              Replayable(ts.state) &&
              exists i :: 0 <= i < |order| && Cell(TRIGGER_ROW, order[i]) in t && t[Cell(TRIGGER_ROW, order[i])] == StatusBlob(ts)
    decreases |order|
  {
    if order == [] then Success([])
    else
      var c := Cell(TRIGGER_ROW, order[0]);
      var rest := ReadTriggers(t, order[1..]);
      if c in t && !t[c].StatusBlob? then Failure(Corrupt)
      else if rest.Failure? then rest
      else if c in t && Replayable(t[c].status.state) then Success([t[c].status] + rest.value)
      else rest
  }

  /** Keys of the PAUSED records, in order. */
  function PausedKeys(statuses: seq<TriggerStatus>): seq<TriggerKey> {
    if statuses == [] then []
    else (if statuses[0].state == PAUSED then [statuses[0].trigger.key] else []) + PausedKeys(statuses[1..])
  }

  /** Targets of the pause calls, in order. */
  function PauseTargets(calls: seq<EngineCall>): seq<TriggerKey> {
    if calls == [] then []
    else (if calls[0].PauseCall? then [calls[0].key] else []) + PauseTargets(calls[1..])
  }

  /** The calls replaying one trigger record. */
  function StatusCalls(ts: TriggerStatus): seq<EngineCall> {
    [StoreTriggerCall(ts.trigger, true)] + (if ts.state == PAUSED then [PauseCall(ts.trigger.key)] else [])
  }

  /**
   * The calls replaying the trigger records: a store with replace for each,
   * and for a PAUSED one a pause of the same key immediately after it.
   */
  function TriggerCalls(statuses: seq<TriggerStatus>): seq<EngineCall>
    decreases |statuses|
  {
    if statuses == [] then [] else StatusCalls(statuses[0]) + TriggerCalls(statuses[1..])
  }

  /** A store with replace for each job, in order. */
  function JobCalls(jobs: seq<JobDetail>): seq<EngineCall> {
    seq(|jobs|, i requires 0 <= i < |jobs| => StoreJobCall(jobs[i], true))
  }

  /** Every job (replacing), then every trigger record. */
  function ReplayCalls(jobs: seq<JobDetail>, statuses: seq<TriggerStatus>): seq<EngineCall> {
    JobCalls(jobs) + TriggerCalls(statuses)
  }

  /**
   * The trigger part of a replay stores no job, stores every trigger with
   * replace, and places each pause right after the store of the same key.
   */
  lemma {:induction false} TriggerCallsShape(statuses: seq<TriggerStatus>)
    ensures var calls := TriggerCalls(statuses);
            && |calls| == |statuses| + |PausedKeys(statuses)|
            && (forall i :: 0 <= i < |calls| ==> !calls[i].StoreJobCall?)
            && (forall i :: 0 <= i < |calls| && calls[i].StoreTriggerCall? ==> calls[i].replace)
            && (forall i :: 0 <= i < |calls| && calls[i].PauseCall? ==>
                  0 < i && calls[i - 1].StoreTriggerCall? && calls[i - 1].trigger.key == calls[i].key)
    decreases |statuses|
  {
    if statuses != [] {
      TriggerCallsShape(statuses[1..]);
      var head := StatusCalls(statuses[0]);
      var rest := TriggerCalls(statuses[1..]);
      assert forall i :: |head| <= i < |head + rest| ==> (head + rest)[i] == rest[i - |head|];
    }
  }

  /**
   * Replay order: the first |jobs| calls store the jobs, in order, with
   * replace; no job is stored after that; every trigger is stored with
   * replace; every pause follows the store of the trigger it pauses.
   */
  lemma ReplayOrder(jobs: seq<JobDetail>, statuses: seq<TriggerStatus>)
    ensures var calls := ReplayCalls(jobs, statuses);
            && |calls| == |jobs| + |statuses| + |PausedKeys(statuses)|
            && (forall i :: 0 <= i < |jobs| ==> calls[i] == StoreJobCall(jobs[i], true))
            && (forall i :: |jobs| <= i < |calls| ==> !calls[i].StoreJobCall?)
            && (forall i :: 0 <= i < |calls| && calls[i].StoreTriggerCall? ==> calls[i].replace)
            && (forall i, j :: 0 <= i < j < |calls| && calls[i].StoreTriggerCall? ==> !calls[j].StoreJobCall?)
            && (forall i :: 0 <= i < |calls| && calls[i].PauseCall? ==>
                  |jobs| < i && calls[i - 1].StoreTriggerCall? && calls[i - 1].trigger.key == calls[i].key)
  {
    TriggerCallsShape(statuses);
    var jc := JobCalls(jobs);
    var tc := TriggerCalls(statuses);
    assert forall i :: |jc| <= i < |jc + tc| ==> (jc + tc)[i] == tc[i - |jc|];
  }

  lemma {:induction false} PauseTargetsAppend(a: seq<EngineCall>, b: seq<EngineCall>)
    ensures PauseTargets(a + b) == PauseTargets(a) + PauseTargets(b)
    decreases |a|
  {
    if a == [] {
      assert a + b == b;
    } else {
      assert (a + b)[0] == a[0];
      assert (a + b)[1..] == a[1..] + b;
      PauseTargetsAppend(a[1..], b);
    }
  }

  /** Replay pauses exactly the PAUSED records, in record order, and nothing else. */
  lemma {:induction false} ReplayPausesExactlyPaused(jobs: seq<JobDetail>, statuses: seq<TriggerStatus>)
    ensures PauseTargets(ReplayCalls(jobs, statuses)) == PausedKeys(statuses)
  {
    var jc := JobCalls(jobs);
    PauseTargetsAppend(jc, TriggerCalls(statuses));
    NoPauseInJobCalls(jc);
    TriggerCallsPause(statuses);
  }

  lemma {:induction false} NoPauseInJobCalls(calls: seq<EngineCall>)
    requires forall i :: 0 <= i < |calls| ==> calls[i].StoreJobCall?
    ensures PauseTargets(calls) == []
    decreases |calls|
  {
    if calls != [] {
      NoPauseInJobCalls(calls[1..]);
    }
  }

  lemma {:induction false} TriggerCallsPause(statuses: seq<TriggerStatus>)
    ensures PauseTargets(TriggerCalls(statuses)) == PausedKeys(statuses)
    decreases |statuses|
  {
    if statuses != [] {
      var head := StatusCalls(statuses[0]);
      PauseTargetsAppend(head, TriggerCalls(statuses[1..]));
      TriggerCallsPause(statuses[1..]);
      assert head[1..] == (if statuses[0].state == PAUSED then [PauseCall(statuses[0].trigger.key)] else []);
      if statuses[0].state == PAUSED {
        assert head[1..][1..] == [];
      }
    }
  }

  /** The keys of a list of jobs. */
  function JobKeys(jobs: seq<JobDetail>): set<JobKey> {
    set j | j in jobs :: j.key
  }

  /** The keys of a list of trigger records. */
  function TriggerKeys(statuses: seq<TriggerStatus>): set<TriggerKey> {
    set ts | ts in statuses :: ts.trigger.key
  }

  lemma {:induction false} TriggerCallsStore(statuses: seq<TriggerStatus>)
    ensures StoredTriggerKeys(TriggerCalls(statuses)) == TriggerKeys(statuses)
    decreases |statuses|
  {
    if statuses == [] {
      assert TriggerKeys(statuses) == {};
    } else {
      var ts := statuses[0];
      var head := StatusCalls(ts);
      StoredTriggerKeysAppend(head, TriggerCalls(statuses[1..]));
      TriggerCallsStore(statuses[1..]);
      assert StoredTriggerKeys(head) == {ts.trigger.key} by {
        assert head[0] == StoreTriggerCall(ts.trigger, true);
        if ts.state == PAUSED {
          assert head[1..] == [PauseCall(ts.trigger.key)];
          assert head[1..][1..] == [];
          assert StoredTriggerKeys(head[1..]) == {};
        } else {
          assert head[1..] == [];
        }
        assert StoredTriggerKeys(head) == {ts.trigger.key} + StoredTriggerKeys(head[1..]);
      }
      assert TriggerKeys(statuses) == {ts.trigger.key} + TriggerKeys(statuses[1..]) by {
        assert forall x :: x in statuses <==> x == ts || x in statuses[1..];
      }
    }
  }

  lemma {:induction false} JobCallsStoreNoTrigger(jobs: seq<JobDetail>)
    ensures StoredTriggerKeys(JobCalls(jobs)) == {}
    decreases |jobs|
  {
    if jobs != [] {
      assert JobCalls(jobs)[1..] == JobCalls(jobs[1..]);
      JobCallsStoreNoTrigger(jobs[1..]);
    }
  }

  /**
   * `initialize`: read both rows in one transaction, then replay into a
   * fresh engine. Any failure — a corrupt record, a failed transaction, a
   * trigger the engine rejects — aborts initialization.
   */
  function Initialize(t: Table, jobOrder: seq<string>, triggerOrder: seq<string>, commit: bool): (r: Result<Engine, Error>)
    ensures ReadJobs(t, jobOrder).Failure? || ReadTriggers(t, triggerOrder).Failure? ==> r == Failure(Corrupt)
    ensures Covers(t, JOBS_ROW, jobOrder) && Covers(t, TRIGGER_ROW, triggerOrder) ==>
              (r == Failure(Corrupt) <==> HasCorruptCell(t))
    ensures !commit ==> r.Failure?
    ensures r.Success? ==> Valid(r.value) && r.value.pausedGroups == {}
  {
    var jobs :- ReadJobs(t, jobOrder);
    var statuses :- ReadTriggers(t, triggerOrder);
    if !commit then Failure(TransactionFailure)
    else
      var p := ApplyCalls(Fresh, ReplayCalls(jobs, statuses));
      if p.outcome.Failure? then Failure(p.outcome.error) else Success(p.engine)
  }

  /**
   * Replay filter, for any table: after a successful initialization the
   * engine holds exactly the triggers of the records tagged NORMAL or
   * PAUSED; a record with any other state never reaches the engine.
   */
  lemma ReplayInstallsExactlyReplayable(t: Table, jobOrder: seq<string>, triggerOrder: seq<string>)
    requires Initialize(t, jobOrder, triggerOrder, true).Success?
    ensures forall k :: k in Initialize(t, jobOrder, triggerOrder, true).value.triggers <==>
              exists i :: && 0 <= i < |triggerOrder|
                          && Cell(TRIGGER_ROW, triggerOrder[i]) in t
                          && t[Cell(TRIGGER_ROW, triggerOrder[i])].StatusBlob?
                          && t[Cell(TRIGGER_ROW, triggerOrder[i])].status.trigger.key == k
                          && Replayable(t[Cell(TRIGGER_ROW, triggerOrder[i])].status.state)
  {
    var jobs := ReadJobs(t, jobOrder).value;
    var statuses := ReadTriggers(t, triggerOrder).value;
    var calls := ReplayCalls(jobs, statuses);
    ApplyCallsTriggerKeys(Fresh, calls);
    StoredTriggerKeysAppend(JobCalls(jobs), TriggerCalls(statuses));
    JobCallsStoreNoTrigger(jobs);
    TriggerCallsStore(statuses);
    var e := Initialize(t, jobOrder, triggerOrder, true).value;
    assert e == ApplyCalls(Fresh, calls).engine;
    assert e.triggers.Keys == TriggerKeys(statuses);
    forall k ensures k in e.triggers <==>
              exists i :: && 0 <= i < |triggerOrder|
                          && Cell(TRIGGER_ROW, triggerOrder[i]) in t
                          && t[Cell(TRIGGER_ROW, triggerOrder[i])].StatusBlob?
                          && t[Cell(TRIGGER_ROW, triggerOrder[i])].status.trigger.key == k
                          && Replayable(t[Cell(TRIGGER_ROW, triggerOrder[i])].status.state)
    {
      if k in e.triggers {
        var ts :| ts in statuses && ts.trigger.key == k;
        var i :| 0 <= i < |triggerOrder| && Cell(TRIGGER_ROW, triggerOrder[i]) in t
                 && t[Cell(TRIGGER_ROW, triggerOrder[i])] == StatusBlob(ts);
      }
      if exists i :: && 0 <= i < |triggerOrder|
                     && Cell(TRIGGER_ROW, triggerOrder[i]) in t
                     && t[Cell(TRIGGER_ROW, triggerOrder[i])].StatusBlob?
                     && t[Cell(TRIGGER_ROW, triggerOrder[i])].status.trigger.key == k
                     && Replayable(t[Cell(TRIGGER_ROW, triggerOrder[i])].status.state) {
        var i :| && 0 <= i < |triggerOrder|
                 && Cell(TRIGGER_ROW, triggerOrder[i]) in t
                 && t[Cell(TRIGGER_ROW, triggerOrder[i])].StatusBlob?
                 && t[Cell(TRIGGER_ROW, triggerOrder[i])].status.trigger.key == k
                 && Replayable(t[Cell(TRIGGER_ROW, triggerOrder[i])].status.state);
        var ts := t[Cell(TRIGGER_ROW, triggerOrder[i])].status;
        assert ts in statuses;
      }
    }
  }

  /**
   * Replay filter over the whole trigger row: when the scan reads every
   * column, a successful initialization holds exactly the triggers of the
   * row's NORMAL and PAUSED records.
   */
  lemma ReplayKeepsExactlyReplayableRecords(t: Table, jobOrder: seq<string>, triggerOrder: seq<string>)
    requires Covers(t, TRIGGER_ROW, triggerOrder)
    requires Initialize(t, jobOrder, triggerOrder, true).Success?
    ensures forall k :: k in Initialize(t, jobOrder, triggerOrder, true).value.triggers <==>
              exists c :: && Cell(TRIGGER_ROW, c) in t
                          && t[Cell(TRIGGER_ROW, c)].StatusBlob?
                          && t[Cell(TRIGGER_ROW, c)].status.trigger.key == k
                          && Replayable(t[Cell(TRIGGER_ROW, c)].status.state)
  {
    ReplayInstallsExactlyReplayable(t, jobOrder, triggerOrder);
    forall c | Cell(TRIGGER_ROW, c) in t
      ensures exists i :: 0 <= i < |triggerOrder| && Cell(TRIGGER_ROW, triggerOrder[i]) == Cell(TRIGGER_ROW, c)
    {
      assert c in triggerOrder;
      var i :| 0 <= i < |triggerOrder| && triggerOrder[i] == c;
      assert Cell(TRIGGER_ROW, triggerOrder[i]) == Cell(TRIGGER_ROW, c);
    }
  }
}

=== FILE: results.dfy ===
/** Failure-compatible result type shared by the schedule store and the DAG store models. */
module Results {

  /** Either a value or an error, usable with `:-`. */
  datatype Result<+T, +E> = Success(value: T) | Failure(error: E) {

    predicate IsFailure() {
      Failure?
    }

    function PropagateFailure<U>(): Result<U, E>
      requires Failure?
    {
      Failure(error)
    }

    function Extract(): T
      requires Success?
    {
      value
    }
  }

  /** An optional value; JavaScript's `undefined`/`null` and Java's `null` map to `None`. */
  datatype Option<+T> = None | Some(value: T)
}

=== FILE: scenarios.dfy ===
/**
 * Multi-call behaviour of the store adapter: repeated pause/resume of one
 * trigger, and a duplicate job stored without replace.
 */
module Scenarios {
  import opened Results
  import opened ScheduleTypes
  import opened ScheduleTable
  import opened ScheduleStore
  import RamEngine

  /** Pauses (true) or resumes (false) trigger `k`, in order, every transaction committing. */
  function Toggle(s: Store, k: TriggerKey, pauses: seq<bool>): Store
    decreases |pauses|
  {
    if pauses == [] then s
    else
      var step := if pauses[0] then PauseTrigger(s, k, true) else ResumeTrigger(s, k, true);
      Toggle(step.store, k, pauses[1..])
  }

  /** The state a pause (true) or a resume (false) asks for. */
  function Target(pause: bool): TriggerState {
    if pause then PAUSED else NORMAL
  }

  /**
   * After any non-empty sequence of pauses and resumes of a trigger with a
   * record, the record holds the same trigger in the state the last call
   * asked for, no other cell has changed, and a trigger the engine holds is
   * in that state too.
   */
  lemma {:induction false} ToggleLastWins(s: Store, k: TriggerKey, pauses: seq<bool>)
    requires |pauses| > 0
    requires TriggerCell(k) in s.table && s.table[TriggerCell(k)].StatusBlob?
    requires s.table[TriggerCell(k)].status.trigger.key.name == k.name
    ensures TriggerCell(k) in Toggle(s, k, pauses).table
    ensures Toggle(s, k, pauses).table[TriggerCell(k)]
              == StatusBlob(TriggerStatus(s.table[TriggerCell(k)].status.trigger, Target(pauses[|pauses| - 1])))
    ensures SameExcept(Toggle(s, k, pauses).table, s.table, TriggerCell(k))
    ensures RamEngine.Valid(s.engine) && k in s.engine.triggers ==>
              && k in Toggle(s, k, pauses).engine.states
              && Toggle(s, k, pauses).engine.states[k] == Target(pauses[|pauses| - 1])
    decreases |pauses|
  {
    var stored := s.table[TriggerCell(k)].status;
    var step := if pauses[0] then PauseTrigger(s, k, true) else ResumeTrigger(s, k, true);
    assert TriggerCell(stored.trigger.key) == TriggerCell(k);
    assert step.store.table == s.table[TriggerCell(k) := StatusBlob(TriggerStatus(stored.trigger, Target(pauses[0])))];
    assert RamEngine.Valid(s.engine) && k in s.engine.triggers ==>
             && RamEngine.Valid(step.store.engine)
             && k in step.store.engine.triggers
             && step.store.engine.states[k] == Target(pauses[0]);
    if |pauses| > 1 {
      ToggleLastWins(step.store, k, pauses[1..]);
      assert pauses[1..][|pauses[1..]| - 1] == pauses[|pauses| - 1];
    }
  }

  /**
   * A second job under a taken key, stored without replace, is rejected
   * with AlreadyExists and leaves both the engine's job and its record as
   * the first version.
   */
  lemma DuplicateJobKeepsFirst(s: Store, first: JobDetail, second: JobDetail, commit: bool)
    requires first.key == second.key
    ensures StoreJob(StoreJob(s, first, true, true).store, second, false, commit).result == Failure(AlreadyExists)
    ensures StoreJob(StoreJob(s, first, true, true).store, second, false, commit).store.engine.jobs[first.key] == first
    ensures StoreJob(StoreJob(s, first, true, true).store, second, false, commit).store.table[JobCell(first.key)]
              == JobBlob(first)
  {
    var s1 := StoreJob(s, first, true, true).store;
    assert first.key in s1.engine.jobs;
    assert StoreJob(s1, second, false, commit) == Step(Failure(AlreadyExists), s1);
  }
}

=== FILE: schedule_store.dfy ===
/**
 * The durable overlay on the in-memory engine (`DatasetBasedTimeScheduleStore`).
 * Every mutating call is applied to the engine first; records are written
 * or deleted only for what the engine accepts, and each record write or
 * delete runs in a transaction of its own. Whether a transaction commits is
 * an input (`commit`): when it does not, the error reaches the caller, that
 * transaction changes nothing, and the engine keeps the change already made.
 */
module ScheduleStore {
  import opened Results
  import opened ScheduleTypes
  import opened ScheduleTable
  import RamEngine

  /** The adapter's two stores: the live engine and the record table. */
  datatype Store = Store(engine: RamEngine.Engine, table: Table)

  /** What a call returns (or throws) and the stores it leaves behind. */
  datatype Step<+T> = Step(result: Result<T, Error>, store: Store)

  /**
   * One transaction around `body`: an exception inside the body aborts with
   * that error; a body that completes is kept only if the commit succeeds.
   */
  function Transact(commit: bool, body: Result<Table, Error>): (r: Result<Table, Error>)
    ensures r.Success? <==> commit && body.Success?
    ensures r.Success? ==> r.value == body.value
    ensures body.Failure? ==> r == body
    ensures body.Success? && !commit ==> r == Failure(TransactionFailure)
  {
    if body.Failure? then body
    else if commit then body
    else Failure(TransactionFailure)
  }

  /**
   * `persistJobAndTrigger`: the trigger's state is taken from the engine
   * (NONE when there is no trigger); then one transaction writes the job
   * record and/or the trigger record.
   */
  function PersistJobAndTrigger(e: RamEngine.Engine, t: Table, job: Option<JobDetail>,
                                trigger: Option<Trigger>, commit: bool): (r: Result<Table, Error>)
    ensures r.Success? <==> commit
    ensures r.Failure? ==> r.error == TransactionFailure
    ensures r.Success? && job.Some? ==>
              JobCell(job.value.key) in r.value && r.value[JobCell(job.value.key)] == JobBlob(job.value)
    ensures r.Success? && trigger.Some? ==>
              TriggerCell(trigger.value.key) in r.value &&
              r.value[TriggerCell(trigger.value.key)]
                == StatusBlob(TriggerStatus(trigger.value, RamEngine.GetTriggerState(e, trigger.value.key)))
    ensures r.Success? && trigger.None? ==> SameRow(r.value, t, TRIGGER_ROW)
    ensures r.Success? && job.None? ==> SameRow(r.value, t, JOBS_ROW)
    ensures r.Success? ==> SameOutside(r.value, t, (if job.Some? then {JobCell(job.value.key)} else {})
                                                   + (if trigger.Some? then {TriggerCell(trigger.value.key)} else {}))
  {
    var st := if trigger.Some? then RamEngine.GetTriggerState(e, trigger.value.key) else NONE;
    var t1 := if job.Some? then PersistJob(t, job.value) else t;
    var t2 := if trigger.Some? then PersistTrigger(t1, trigger.value, st) else t1;
    Transact(commit, Success(t2))
  }

  /** `storeJob`: engine first; a rejected job never reaches the table. */
  function StoreJob(s: Store, job: JobDetail, replace: bool, commit: bool): (r: Step<()>)
    ensures job.key in s.engine.jobs && !replace ==> r == Step(Failure(AlreadyExists), s)
    ensures !(job.key in s.engine.jobs && !replace) ==>
              && r.store.engine.jobs == s.engine.jobs[job.key := job]
              && r.store.engine.triggers == s.engine.triggers
              && r.store.engine.states == s.engine.states
              && r.store.engine.pausedGroups == s.engine.pausedGroups
              && (commit ==> r.result == Success(()) && r.store.table == s.table[JobCell(job.key) := JobBlob(job)])
              && (!commit ==> r.result == Failure(TransactionFailure) && r.store.table == s.table)
  {
    match RamEngine.StoreJob(s.engine, job, replace)
    case Failure(err) => Step(Failure(err), s)
    case Success(e1) =>
      match PersistJobAndTrigger(e1, s.table, Some(job), None, commit)
      case Failure(err) => Step(Failure(err), Store(e1, s.table))
      case Success(t1) => Step(Success(()), Store(e1, t1))
  }

  /**
   * `storeTrigger`: engine first; on acceptance the record carries the state
   * the engine reports for the trigger right after storing it.
   */
  function StoreTrigger(s: Store, trigger: Trigger, replace: bool, commit: bool): (r: Step<()>)
    ensures trigger.key in s.engine.triggers && !replace ==> r == Step(Failure(AlreadyExists), s)
    ensures !(trigger.key in s.engine.triggers && !replace) && trigger.jobKey !in s.engine.jobs ==>
              r == Step(Failure(JobNotFound), s)
    ensures !(trigger.key in s.engine.triggers && !replace) && trigger.jobKey in s.engine.jobs ==>
              && r.store.engine.jobs == s.engine.jobs
              && r.store.engine.triggers == s.engine.triggers[trigger.key := trigger]
              && r.store.engine.states == s.engine.states[trigger.key := RamEngine.InitialState(s.engine, trigger)]
              && r.store.engine.pausedGroups == s.engine.pausedGroups
              && (commit ==> && r.result == Success(())
                             && r.store.table == s.table[TriggerCell(trigger.key) :=
                                  StatusBlob(TriggerStatus(trigger, r.store.engine.states[trigger.key]))])
              && (!commit ==> r.result == Failure(TransactionFailure) && r.store.table == s.table)
  {
    match RamEngine.StoreTrigger(s.engine, trigger, replace)
    case Failure(err) => Step(Failure(err), s)
    case Success(e1) =>
      match PersistJobAndTrigger(e1, s.table, None, Some(trigger), commit)
      case Failure(err) => Step(Failure(err), Store(e1, s.table))
      case Success(t1) => Step(Success(()), Store(e1, t1))
  }

  /**
   * `storeJobAndTrigger`: `storeJob(job, true)` then `storeTrigger(trigger, true)`,
   * two separate transactions; an exception from the first skips the second.
   */
  function StoreJobAndTrigger(s: Store, job: JobDetail, trigger: Trigger,
                              commitJob: bool, commitTrigger: bool): (r: Step<()>)
    ensures r.store.engine.jobs == s.engine.jobs[job.key := job]
    ensures r.store.engine.pausedGroups == s.engine.pausedGroups
    ensures !(commitJob && trigger.jobKey in s.engine.jobs[job.key := job]) ==>
              r.store.engine.triggers == s.engine.triggers && r.store.engine.states == s.engine.states
    ensures !commitJob ==> r.result == Failure(TransactionFailure) && r.store.table == s.table
    ensures commitJob ==> JobCell(job.key) in r.store.table && r.store.table[JobCell(job.key)] == JobBlob(job)
    ensures commitJob && trigger.jobKey !in s.engine.jobs[job.key := job] ==>
              r == Step(Failure(JobNotFound), Store(r.store.engine, s.table[JobCell(job.key) := JobBlob(job)]))
    ensures commitJob && trigger.jobKey in s.engine.jobs[job.key := job] ==>
              && r.store.engine.triggers == s.engine.triggers[trigger.key := trigger]
              && r.store.engine.states == s.engine.states[trigger.key := RamEngine.InitialState(s.engine, trigger)]
              && (r.result.Success? <==> commitTrigger)
              && (!commitTrigger ==> r.result == Failure(TransactionFailure)
                                     && r.store.table == s.table[JobCell(job.key) := JobBlob(job)])
              && (commitTrigger ==> r.store.table == s.table[JobCell(job.key) := JobBlob(job)]
                                                     [TriggerCell(trigger.key) :=
                                                      StatusBlob(TriggerStatus(trigger, r.store.engine.states[trigger.key]))])
  {
    var first := StoreJob(s, job, true, commitJob);
    if first.result.Failure? then first
    else StoreTrigger(first.store, trigger, true, commitTrigger)
  }

  /** The cell the store call `c` writes (a pause rewrites its trigger's cell). */
  function CallCell(c: RamEngine.EngineCall): Cell {
    match c
    case StoreJobCall(job, _) => JobCell(job.key)
    case StoreTriggerCall(t, _) => TriggerCell(t.key)
    case PauseCall(k) => TriggerCell(k)
  }

  /** The cells a sequence of calls writes. */
  function CallCells(calls: seq<RamEngine.EngineCall>): (r: set<Cell>)
    ensures forall c :: c in calls ==> CallCell(c) in r
    ensures forall d :: d in r ==> exists c :: c in calls && d == CallCell(c)
  {
    set c | c in calls :: CallCell(c)
  }

  /** The record the store call `c` writes, given the engine right after it. */
  function CallBlob(e: RamEngine.Engine, c: RamEngine.EngineCall): Blob
    requires !c.PauseCall?
  {
    if c.StoreJobCall? then JobBlob(c.job)
    else StatusBlob(TriggerStatus(c.trigger, RamEngine.GetTriggerState(e, c.trigger.key)))
  }

  /** No call after the `i`-th writes the `i`-th call's cell. */
  predicate LastWrite(calls: seq<RamEngine.EngineCall>, i: nat)
    requires i < |calls|
  {
    forall j :: i < j < |calls| ==> CallCell(calls[j]) != CallCell(calls[i])
  }

  /** The index of the first transaction that does not commit; the count when all commit. */
  function FirstAbort(commits: seq<bool>): (m: nat)
    ensures m <= |commits|
    ensures forall j :: 0 <= j < m ==> commits[j]
    ensures m < |commits| ==> !commits[m]
  {
    if commits == [] || !commits[0] then 0 else 1 + FirstAbort(commits[1..])
  }

  /** How many calls reach the engine: those up to and including the first whose transaction fails. */
  function Issued(commits: seq<bool>): (n: nat)
    ensures n <= |commits|
  {
    if FirstAbort(commits) < |commits| then FirstAbort(commits) + 1 else FirstAbort(commits)
  }

  /** How the calls that reach the engine split into the first call and those after it. */
  lemma IssuedCons(calls: seq<RamEngine.EngineCall>, commits: seq<bool>)
    requires |calls| == |commits| > 0
    ensures Issued(commits) >= 1 && calls[..Issued(commits)][0] == calls[0]
    ensures !commits[0] ==> FirstAbort(commits) == 0 && calls[..Issued(commits)][1..] == []
    ensures commits[0] ==> && FirstAbort(commits) == 1 + FirstAbort(commits[1..])
                           && calls[..Issued(commits)][1..] == calls[1..][..Issued(commits[1..])]
  {
  }

  /** A store call issued by the engine, dispatched to this class's override. */
  function StoreCall(s: Store, c: RamEngine.EngineCall, commit: bool): (r: Step<()>)
    requires !c.PauseCall?
    ensures commit ==> r.result == (match RamEngine.Apply(s.engine, c) case Success(_) => Success(()) case Failure(err) => Failure(err))
    ensures commit ==> r.store.engine == (match RamEngine.Apply(s.engine, c) case Success(e1) => e1 case Failure(_) => s.engine)
    ensures RamEngine.Apply(s.engine, c).Failure? ==> r == Step(Failure(RamEngine.Apply(s.engine, c).error), s)
    ensures RamEngine.Apply(s.engine, c).Success? ==>
              && r.store.engine == RamEngine.Apply(s.engine, c).value
              && (commit ==> r.result == Success(()) && r.store.table == s.table[CallCell(c) := CallBlob(r.store.engine, c)])
              && (!commit ==> r.result == Failure(TransactionFailure) && r.store.table == s.table)
    ensures forall k :: !(c.StoreTriggerCall? && c.trigger.key == k) ==>
              RamEngine.GetTriggerState(r.store.engine, k) == RamEngine.GetTriggerState(s.engine, k)
    ensures SameOutside(r.store.table, s.table, {CallCell(c)})
    ensures r.result.Success? ==> CallCell(c) in r.store.table
  {
    if c.StoreJobCall? then StoreJob(s, c.job, c.replace, commit)
    else StoreTrigger(s, c.trigger, c.replace, commit)
  }

  /**
   * What a run of store calls reports: the engine the calls up to and
   * including the first failed transaction leave, and the engine's rejection
   * if one of them raised one, else the failed transaction, else success.
   */
  predicate Reports(e: RamEngine.Engine, calls: seq<RamEngine.EngineCall>, commits: seq<bool>, r: Step<()>)
    requires |commits| == |calls|
  {
    var p := RamEngine.ApplyCalls(e, calls[..Issued(commits)]);
    && r.store.engine == p.engine
    && r.result == (if p.outcome.Failure? then p.outcome
                    else if FirstAbort(commits) < |commits| then Failure(TransactionFailure)
                    else Success(()))
  }

  /** A first call that raises ends the run with its own report. */
  lemma ReportsHead(s: Store, calls: seq<RamEngine.EngineCall>, commits: seq<bool>)
    requires RamEngine.StoresOnly(calls) && |commits| == |calls| > 0
    requires StoreCall(s, calls[0], commits[0]).result.Failure?
    ensures Reports(s.engine, calls, commits, StoreCall(s, calls[0], commits[0]))
  {
    IssuedCons(calls, commits);
    if RamEngine.Apply(s.engine, calls[0]).Success? {
      assert calls[..Issued(commits)] == [calls[0]];
    }
  }

  /** A first call that succeeds hands the report over to the calls after it. */
  lemma ReportsCons(s: Store, calls: seq<RamEngine.EngineCall>, commits: seq<bool>, rest: Step<()>)
    requires RamEngine.StoresOnly(calls) && |commits| == |calls| > 0
    requires StoreCall(s, calls[0], commits[0]).result.Success?
    requires Reports(StoreCall(s, calls[0], commits[0]).store.engine, calls[1..], commits[1..], rest)
    ensures Reports(s.engine, calls, commits, rest)
  {
    IssuedCons(calls, commits);
    var first := StoreCall(s, calls[0], commits[0]);
    assert commits[0] && RamEngine.Apply(s.engine, calls[0]) == Success(first.store.engine);
    assert RamEngine.ApplyCalls(s.engine, calls[..Issued(commits)])
        == RamEngine.ApplyCalls(first.store.engine, calls[1..][..Issued(commits[1..])]);
    assert forall i :: 1 <= i < |commits| ==> commits[1..][i - 1] == commits[i];
  }

  /**
   * Issues the calls in order through the overrides, call `i` persisting in
   * a transaction of its own that commits iff `commits[i]`. The first
   * exception ends the sequence; the calls before it keep their effects.
   */
  function StoreEach(s: Store, calls: seq<RamEngine.EngineCall>, commits: seq<bool>): (r: Step<()>)
    requires RamEngine.StoresOnly(calls) && |commits| == |calls|
    ensures Reports(s.engine, calls, commits, r)
    ensures SameOutside(r.store.table, s.table, CallCells(calls))
    ensures r.result.Success? ==> forall c :: c in calls ==> CallCell(c) in r.store.table
    decreases |calls|
  {
    if calls == [] then Step(Success(()), s)
    else
      var first := StoreCall(s, calls[0], commits[0]);
      if first.result.Failure? then ReportsHead(s, calls, commits); first
      else
        var rest := StoreEach(first.store, calls[1..], commits[1..]);
        ReportsCons(s, calls, commits, rest);
        assert forall c :: c in calls ==> c == calls[0] || c in calls[1..];
        rest
  }

  /** With every transaction committed, the batch does what the engine alone does. */
  lemma StoreEachAllCommit(s: Store, calls: seq<RamEngine.EngineCall>, commits: seq<bool>)
    requires RamEngine.StoresOnly(calls) && |commits| == |calls|
    requires forall i :: 0 <= i < |commits| ==> commits[i]
    ensures StoreEach(s, calls, commits).result == RamEngine.ApplyCalls(s.engine, calls).outcome
    ensures StoreEach(s, calls, commits).store.engine == RamEngine.ApplyCalls(s.engine, calls).engine
  {
    assert FirstAbort(commits) == |commits|;
    assert calls[..Issued(commits)] == calls;
    var p := RamEngine.ApplyCalls(s.engine, calls);
    var r := StoreEach(s, calls, commits);
    if p.outcome.Success? {
      assert p.outcome.value == ();
    } else {
      assert r.result == p.outcome;
    }
  }

  /**
   * A successful batch had every transaction commit; a failed one raised an
   * engine rejection or a transaction failure, the latter only when some
   * transaction failed.
   */
  lemma StoreEachOutcome(s: Store, calls: seq<RamEngine.EngineCall>, commits: seq<bool>)
    requires RamEngine.StoresOnly(calls) && |commits| == |calls|
    ensures var r := StoreEach(s, calls, commits);
            && (r.result.Success? ==> forall i :: 0 <= i < |commits| ==> commits[i])
            && (r.result.Failure? ==>
                  r.result.error == AlreadyExists || r.result.error == JobNotFound || r.result.error == TransactionFailure)
            && (r.result.Failure? && r.result.error == TransactionFailure ==> exists i :: 0 <= i < |commits| && !commits[i])
  {
    var m := FirstAbort(commits);
    if m < |commits| {
      assert !commits[m];
    }
  }

  /** Store calls leave the reported state of every trigger key none of them stores. */
  lemma {:induction false} StoreEachKeepsOtherStates(s: Store, calls: seq<RamEngine.EngineCall>, commits: seq<bool>)
    requires RamEngine.StoresOnly(calls) && |commits| == |calls|
    ensures forall k :: (forall c :: c in calls ==> !(c.StoreTriggerCall? && c.trigger.key == k)) ==>
              RamEngine.GetTriggerState(StoreEach(s, calls, commits).store.engine, k) == RamEngine.GetTriggerState(s.engine, k)
    decreases |calls|
  {
    if calls != [] {
      var first := StoreCall(s, calls[0], commits[0]);
      if first.result.Success? {
        assert RamEngine.StoresOnly(calls[1..]);
        StoreEachKeepsOtherStates(first.store, calls[1..], commits[1..]);
        assert forall c :: c in calls[1..] ==> c in calls;
      }
    }
  }

  /** The first call's cell is written by no later call when it is the last write. */
  lemma LastWriteHead(calls: seq<RamEngine.EngineCall>)
    requires |calls| > 0 && LastWrite(calls, 0)
    ensures forall d :: d in calls[1..] ==> CallCell(d) != CallCell(calls[0])
  {
    assert forall j :: 0 <= j < |calls[1..]| ==> calls[1..][j] == calls[j + 1];
  }

  /** A last write after the first call is a last write of the remaining calls. */
  lemma LastWriteTail(calls: seq<RamEngine.EngineCall>, i: nat)
    requires 1 <= i < |calls| && LastWrite(calls, i)
    ensures calls[1..][i - 1] == calls[i] && LastWrite(calls[1..], i - 1)
  {
  }

  /** The last writes of a sequence of calls are its first call, if last, and the last writes after it. */
  lemma RecordsCons(calls: seq<RamEngine.EngineCall>, t: Table, e: RamEngine.Engine)
    requires |calls| > 0 && RamEngine.StoresOnly(calls)
    requires LastWrite(calls, 0) ==> CallCell(calls[0]) in t && t[CallCell(calls[0])] == CallBlob(e, calls[0])
    requires forall i :: 1 <= i < |calls| && LastWrite(calls[1..], i - 1) ==>
               CallCell(calls[i]) in t && t[CallCell(calls[i])] == CallBlob(e, calls[i])
    ensures forall i :: 0 <= i < |calls| && LastWrite(calls, i) ==>
              CallCell(calls[i]) in t && t[CallCell(calls[i])] == CallBlob(e, calls[i])
  {
    forall i | 1 <= i < |calls| && LastWrite(calls, i)
      ensures CallCell(calls[i]) in t && t[CallCell(calls[i])] == CallBlob(e, calls[i])
    {
      LastWriteTail(calls, i);
    }
  }

  /** A record no later store call writes keeps what its call wrote, with the trigger's final state. */
  lemma StoreEachKeepsRecord(s: Store, calls: seq<RamEngine.EngineCall>, commits: seq<bool>, c: RamEngine.EngineCall)
    requires RamEngine.StoresOnly(calls) && |commits| == |calls| && !c.PauseCall?
    requires CallCell(c) in s.table && s.table[CallCell(c)] == CallBlob(s.engine, c)
    requires forall d :: d in calls ==> CallCell(d) != CallCell(c)
    ensures var r := StoreEach(s, calls, commits);
            CallCell(c) in r.store.table && r.store.table[CallCell(c)] == CallBlob(r.store.engine, c)
  {
    StoreEachKeepsOtherStates(s, calls, commits);
    if c.StoreTriggerCall? {
      assert forall d :: d in calls && d.StoreTriggerCall? && d.trigger.key == c.trigger.key ==> CallCell(d) == CallCell(c);
    }
  }

  /**
   * After a successful run of store calls, every record that no later call
   * overwrites holds what its call wrote: the job, or the trigger with the
   * state the engine reports at the end.
   */
  lemma {:induction false} StoreEachRecords(s: Store, calls: seq<RamEngine.EngineCall>, commits: seq<bool>)
    requires RamEngine.StoresOnly(calls) && |commits| == |calls|
    ensures var r := StoreEach(s, calls, commits);
            r.result.Success? ==>
              forall i :: 0 <= i < |calls| && LastWrite(calls, i) ==>
                CallCell(calls[i]) in r.store.table && r.store.table[CallCell(calls[i])] == CallBlob(r.store.engine, calls[i])
    decreases |calls|
  {
    if calls != [] {
      var first := StoreCall(s, calls[0], commits[0]);
      if first.result.Success? {
        var tail := calls[1..];
        assert RamEngine.StoresOnly(tail);
        StoreEachRecords(first.store, tail, commits[1..]);
        var r := StoreEach(first.store, tail, commits[1..]);
        assert StoreEach(s, calls, commits) == r;
        if r.result.Success? {
          if LastWrite(calls, 0) {
            LastWriteHead(calls);
            assert commits[0];
            StoreEachKeepsRecord(first.store, tail, commits[1..], calls[0]);
          }
          RecordsCons(calls, r.store.table, r.store.engine);
        }
      }
    }
  }

  /** A table holding the cell of every bulk call holds a record for every job and trigger of the batch. */
  lemma BatchCellsPresent(batch: seq<(JobDetail, seq<Trigger>)>, t: Table)
    requires forall c :: c in RamEngine.BulkCalls(batch) ==> CallCell(c) in t
    ensures forall i :: 0 <= i < |batch| ==>
              JobCell(batch[i].0.key) in t && forall tr :: tr in batch[i].1 ==> TriggerCell(tr.key) in t
  {
    forall i | 0 <= i < |batch| ensures JobCell(batch[i].0.key) in t {
      assert CallCell(RamEngine.StoreJobCall(batch[i].0, true)) in t;
    }
    forall i, tr | 0 <= i < |batch| && tr in batch[i].1 ensures TriggerCell(tr.key) in t {
      assert CallCell(RamEngine.StoreTriggerCall(tr, true)) in t;
    }
  }

  /**
   * `storeJobsAndTriggers`, inherited from the engine. Without replace, any
   * collision rejects the batch before anything is stored. Otherwise the
   * engine stores each job and then that job's triggers, all with replace,
   * through `storeJob`/`storeTrigger`, which dispatch to this class's
   * overrides: each record is persisted in a transaction of its own
   * (`commits`, one per call, in order).
   */
  function StoreJobsAndTriggers(s: Store, batch: seq<(JobDetail, seq<Trigger>)>, replace: bool,
                                commits: seq<bool>): (r: Step<()>)
    requires |commits| == |RamEngine.BulkCalls(batch)|
    ensures !replace && RamEngine.Collides(s.engine, batch) ==> r == Step(Failure(AlreadyExists), s)
    ensures (forall i :: 0 <= i < |commits| ==> commits[i]) ==>
              r.result == RamEngine.StoreJobsAndTriggers(s.engine, batch, replace).outcome
              && r.store.engine == RamEngine.StoreJobsAndTriggers(s.engine, batch, replace).engine
    ensures !(!replace && RamEngine.Collides(s.engine, batch)) ==>
              var p := RamEngine.ApplyCalls(s.engine, RamEngine.BulkCalls(batch)[..Issued(commits)]);
              && r.store.engine == p.engine
              && r.result == (if p.outcome.Failure? then p.outcome
                              else if FirstAbort(commits) < |commits| then Failure(TransactionFailure)
                              else Success(()))
    ensures r.result.Success? ==> forall i :: 0 <= i < |commits| ==> commits[i]
    ensures SameOutside(r.store.table, s.table, CallCells(RamEngine.BulkCalls(batch)))
    ensures r.result.Success? ==>
              var calls := RamEngine.BulkCalls(batch);
              forall i :: 0 <= i < |calls| && LastWrite(calls, i) ==>
                CallCell(calls[i]) in r.store.table && r.store.table[CallCell(calls[i])] == CallBlob(r.store.engine, calls[i])
    ensures r.result.Success? ==>
              forall i :: 0 <= i < |batch| ==>
                JobCell(batch[i].0.key) in r.store.table
                && forall t :: t in batch[i].1 ==> TriggerCell(t.key) in r.store.table
  {
    if !replace && RamEngine.Collides(s.engine, batch) then Step(Failure(AlreadyExists), s)
    else
      StoreEachRecords(s, RamEngine.BulkCalls(batch), commits);
      StoreEachOutcome(s, RamEngine.BulkCalls(batch), commits);
      var r := StoreEach(s, RamEngine.BulkCalls(batch), commits);
      if r.result.Success? then
        StoreEachAllCommit(s, RamEngine.BulkCalls(batch), commits);
        BatchCellsPresent(batch, r.store.table);
        r
      else if forall i :: 0 <= i < |commits| ==> commits[i] then
        StoreEachAllCommit(s, RamEngine.BulkCalls(batch), commits);
        r
      else r
  }

  /**
   * `persistChangeOfState`: in one transaction, read the record stored under
   * the key's name and, when there is one, write its trigger back with the
   * new state; when there is none, write nothing and raise nothing.
   */
  function PersistChangeOfState(t: Table, k: TriggerKey, st: TriggerState, commit: bool): (r: Result<Table, Error>)
    ensures TriggerCell(k) !in t ==> r == (if commit then Success(t) else Failure(TransactionFailure))
    ensures TriggerCell(k) in t && !t[TriggerCell(k)].StatusBlob? ==> r == Failure(Corrupt)
    ensures TriggerCell(k) in t && t[TriggerCell(k)].StatusBlob? ==>
              var stored := t[TriggerCell(k)].status;
              r == (if commit then Success(t[TriggerCell(stored.trigger.key) := StatusBlob(TriggerStatus(stored.trigger, st))])
                    else Failure(TransactionFailure))
  {
    var body: Result<Table, Error> :=
      match ReadTrigger(t, k)
      case Failure(err) => Failure(err)
      case Success(None) => Success(t)
      case Success(Some(stored)) => Success(PersistTrigger(t, stored.trigger, st));
    Transact(commit, body)
  }

  /** Shared shape of pause and resume: engine call, then the state rewrite. */
  function ChangeState(s: Store, e1: RamEngine.Engine, k: TriggerKey, st: TriggerState, commit: bool): Step<()> {
    match PersistChangeOfState(s.table, k, st, commit)
    case Failure(err) => Step(Failure(err), Store(e1, s.table))
    case Success(t1) => Step(Success(()), Store(e1, t1))
  }

  /** `pauseTrigger`: the engine pauses; a stored record is rewritten as PAUSED. */
  function PauseTrigger(s: Store, k: TriggerKey, commit: bool): (r: Step<()>)
    ensures r.store.engine == RamEngine.Pause(s.engine, k)
    ensures TriggerCell(k) !in s.table ==> r.store.table == s.table && (r.result.Success? <==> commit)
    ensures !commit ==> r.store.table == s.table && r.result.Failure?
    ensures TriggerCell(k) in s.table && commit ==>
              match s.table[TriggerCell(k)]
              case StatusBlob(stored) =>
                r == Step(Success(()), Store(r.store.engine,
                       s.table[TriggerCell(stored.trigger.key) := StatusBlob(TriggerStatus(stored.trigger, PAUSED))]))
              case _ => r == Step(Failure(Corrupt), Store(r.store.engine, s.table))
  {
    ChangeState(s, RamEngine.Pause(s.engine, k), k, PAUSED, commit)
  }

  /** `resumeTrigger`: the engine resumes; a stored record is rewritten as NORMAL. */
  function ResumeTrigger(s: Store, k: TriggerKey, commit: bool): (r: Step<()>)
    ensures r.store.engine == RamEngine.Resume(s.engine, k)
    ensures TriggerCell(k) !in s.table ==> r.store.table == s.table && (r.result.Success? <==> commit)
    ensures !commit ==> r.store.table == s.table && r.result.Failure?
    ensures TriggerCell(k) in s.table && commit ==>
              match s.table[TriggerCell(k)]
              case StatusBlob(stored) =>
                r == Step(Success(()), Store(r.store.engine,
                       s.table[TriggerCell(stored.trigger.key) := StatusBlob(TriggerStatus(stored.trigger, NORMAL))]))
              case _ => r == Step(Failure(Corrupt), Store(r.store.engine, s.table))
  {
    ChangeState(s, RamEngine.Resume(s.engine, k), k, NORMAL, commit)
  }

  /**
   * `removeTrigger`: the engine removes the trigger, then its record is
   * deleted; the call answers true whatever the engine found.
   */
  function RemoveTrigger(s: Store, k: TriggerKey, commit: bool): (r: Step<bool>)
    ensures r.result == (if commit then Success(true) else Failure(TransactionFailure))
    ensures r.store.engine == RamEngine.RemoveTrigger(s.engine, k).engine
    ensures commit ==> TriggerCell(k) !in r.store.table && SameExcept(r.store.table, s.table, TriggerCell(k))
    ensures !commit ==> r.store.table == s.table
  {
    var removal := RamEngine.RemoveTrigger(s.engine, k);
    match Transact(commit, Success(DeleteTrigger(s.table, k)))
    case Failure(err) => Step(Failure(err), Store(removal.engine, s.table))
    case Success(t1) => Step(Success(true), Store(removal.engine, t1))
  }

  /**
   * `removeJob` as written. The engine removes the job; its cascade removes
   * each of the job's triggers through the overridden `removeTrigger`, which
   * deletes that trigger's record in a transaction of its own. Then the cell
   * at column `key.getName()` is deleted. The job record, written at column
   * `key.toString()`, survives.
   */
  function RemoveJob(s: Store, k: JobKey, commit: bool): (r: Step<bool>)
    ensures r.result == (if commit then Success(true) else Failure(TransactionFailure))
    ensures r.store.engine == RamEngine.RemoveJob(s.engine, k).engine && k !in r.store.engine.jobs
    ensures forall tk :: tk in RamEngine.TriggersOf(s.engine, k) ==> TriggerCell(tk) !in r.store.table
    ensures JobCell(k) in s.table ==> JobCell(k) in r.store.table && r.store.table[JobCell(k)] == s.table[JobCell(k)]
    ensures commit ==> JobDeleteCell(k) !in r.store.table
    ensures !commit ==> SameOutside(r.store.table, s.table, TriggerCells(RamEngine.TriggersOf(s.engine, k)))
    ensures SameOutside(r.store.table, s.table, TriggerCells(RamEngine.TriggersOf(s.engine, k)) + {JobDeleteCell(k)})
  {
    var removal := RamEngine.RemoveJob(s.engine, k);
    var t0 := s.table - TriggerCells(RamEngine.TriggersOf(s.engine, k));
    match Transact(commit, Success(DeleteJob(t0, k)))
    case Failure(err) => Step(Failure(err), Store(removal.engine, t0))
    case Success(t1) => Step(Success(true), Store(removal.engine, t1))
  }

  /**
   * `removeJob` deleting the column the job record was written under; the
   * cascade is as in `RemoveJob`.
   */
  function RemoveJobCorrected(s: Store, k: JobKey, commit: bool): (r: Step<bool>)
    ensures r.result == (if commit then Success(true) else Failure(TransactionFailure))
    ensures r.store.engine == RamEngine.RemoveJob(s.engine, k).engine && k !in r.store.engine.jobs
    ensures forall tk :: tk in RamEngine.TriggersOf(s.engine, k) ==> TriggerCell(tk) !in r.store.table
    ensures commit ==> JobCell(k) !in r.store.table
    ensures !commit ==> SameOutside(r.store.table, s.table, TriggerCells(RamEngine.TriggersOf(s.engine, k)))
    ensures SameOutside(r.store.table, s.table, TriggerCells(RamEngine.TriggersOf(s.engine, k)) + {JobCell(k)})
  {
    var removal := RamEngine.RemoveJob(s.engine, k);
    var t0 := s.table - TriggerCells(RamEngine.TriggersOf(s.engine, k));
    match Transact(commit, Success(t0 - {JobCell(k)}))
    case Failure(err) => Step(Failure(err), Store(removal.engine, t0))
    case Success(t1) => Step(Success(true), Store(removal.engine, t1))
  }
}

=== FILE: schedule_table.dfy ===
/**
 * The transactional key/value table the adapter persists into, and the
 * record encodings it uses: job records in row "jobs", trigger records
 * (trigger plus state) in row "trigger". Serialized payloads are modelled
 * as the values they decode to; a cell holding anything else is unreadable.
 */
module ScheduleTable {
  import opened Results
  import opened ScheduleTypes

  const JOBS_ROW: string := "jobs"
  const TRIGGER_ROW: string := "trigger"

  /** A (row, column) address. */
  datatype Cell = Cell(row: string, column: string)

  /** A stored payload: a serialized `JobDetail`, a serialized `TriggerStatus`, or other bytes. */
  datatype Blob = JobBlob(job: JobDetail) | StatusBlob(status: TriggerStatus) | Unreadable(bytes: Bytes)

  type Table = map<Cell, Blob>

  /** Quartz's `Key.toString()`: group, a dot, then name. */
  function KeyString(k: JobKey): string {
    k.group + "." + k.name
  }

  /** Where a job record is written: column `key.toString()`. */
  function JobCell(k: JobKey): Cell {
    Cell(JOBS_ROW, KeyString(k))
  }

  /** Where a job record is deleted: column `key.getName()`. */
  function JobDeleteCell(k: JobKey): Cell {
    Cell(JOBS_ROW, k.name)
  }

  /** Where a trigger record is written, read and deleted: column `key.getName()`. */
  function TriggerCell(k: TriggerKey): Cell {
    Cell(TRIGGER_ROW, k.name)
  }

  /** The cells of `t` other than `c` are those of `u`. */
  ghost predicate SameExcept(t: Table, u: Table, c: Cell) {
    forall d :: d != c ==> (d in t <==> d in u) && (d in t ==> t[d] == u[d])
  }

  /** The cells of row `row` are the same in `t` and `u`. */
  ghost predicate SameRow(t: Table, u: Table, row: string) {
    forall d: Cell :: d.row == row ==> (d in t <==> d in u) && (d in t ==> t[d] == u[d])
  }

  /** The cells of `t` outside `cells` are those of `u`. */
  ghost predicate SameOutside(t: Table, u: Table, cells: set<Cell>) {
    forall d :: d !in cells ==> (d in t <==> d in u) && (d in t ==> t[d] == u[d])
  }

  /** The trigger-row cells of a set of trigger keys. */
  function TriggerCells(ks: set<TriggerKey>): (r: set<Cell>)
    ensures forall tk :: tk in ks ==> TriggerCell(tk) in r
    ensures forall c :: c in r ==> c.row == TRIGGER_ROW && exists tk :: tk in ks && tk.name == c.column
  {
    set tk | tk in ks :: TriggerCell(tk)
  }

  /** Writes the job record; no other cell changes. */
  function PersistJob(t: Table, job: JobDetail): (r: Table)
    ensures JobCell(job.key) in r && r[JobCell(job.key)] == JobBlob(job)
    ensures SameExcept(r, t, JobCell(job.key))
  {
    t[JobCell(job.key) := JobBlob(job)]
  }

  /** Writes the trigger record carrying `st`; no other cell changes. */
  function PersistTrigger(t: Table, trigger: Trigger, st: TriggerState): (r: Table)
    ensures TriggerCell(trigger.key) in r && r[TriggerCell(trigger.key)] == StatusBlob(TriggerStatus(trigger, st))
    ensures SameExcept(r, t, TriggerCell(trigger.key))
  {
    t[TriggerCell(trigger.key) := StatusBlob(TriggerStatus(trigger, st))]
  }

  /** Reads the trigger record under the key's name; a record that is not a `TriggerStatus` is corrupt. */
  function ReadTrigger(t: Table, k: TriggerKey): (r: Result<Option<TriggerStatus>, Error>)
    ensures r == Success(None) <==> TriggerCell(k) !in t
    ensures r.Failure? <==> TriggerCell(k) in t && !t[TriggerCell(k)].StatusBlob?
    ensures r.Failure? ==> r.error == Corrupt
    ensures forall ts :: r == Success(Some(ts)) <==> TriggerCell(k) in t && t[TriggerCell(k)] == StatusBlob(ts)
  {
    var c := TriggerCell(k);
    if c !in t then Success(None)
    else match t[c]
      case StatusBlob(ts) => Success(Some(ts))
      case _ => Failure(Corrupt)
  }

  /** Deletes the trigger record under the key's name; no other cell changes. */
  function DeleteTrigger(t: Table, k: TriggerKey): (r: Table)
    ensures TriggerCell(k) !in r && SameExcept(r, t, TriggerCell(k))
  {
    t - {TriggerCell(k)}
  }

  /** Deletes the cell `removeJob` addresses, which is not the one `persistJob` wrote. */
  function DeleteJob(t: Table, k: JobKey): (r: Table)
    ensures JobDeleteCell(k) !in r && SameExcept(r, t, JobDeleteCell(k))
    ensures JobCell(k) in t ==> JobCell(k) in r && r[JobCell(k)] == t[JobCell(k)]
  {
    t - {JobDeleteCell(k)}
  }

  /** Two different job keys can share a written column, because group names may contain dots. */
  lemma JobColumnsCanCollide()
    ensures JobKey("a.b", "c") != JobKey("a", "b.c")
    ensures JobCell(JobKey("a.b", "c")) == JobCell(JobKey("a", "b.c"))
  {
    assert KeyString(JobKey("a.b", "c")) == "a.b.c";
    assert KeyString(JobKey("a", "b.c")) == "a.b.c";
  }
}

=== FILE: schedule_types.dfy ===
/**
 * The scheduling vocabulary shared by the engine, the record table and the
 * store adapter: Quartz job and trigger keys, job and trigger definitions with
 * opaque payloads, the public trigger states, and the error kinds that escape
 * the adapter.
 */
module ScheduleTypes {

  /** Serialized bytes; never interpreted by the model. */
  type Bytes = seq<bv8>

  /** A Quartz `JobKey`: a (group, name) pair. */
  datatype JobKey = JobKey(group: string, name: string)

  /** A Quartz `TriggerKey`: a (group, name) pair. */
  datatype TriggerKey = TriggerKey(group: string, name: string)

  /** A `JobDetail`: its key and an opaque definition. */
  datatype JobDetail = JobDetail(key: JobKey, definition: Bytes)

  /** An `OperableTrigger`: its key, the key of the job it fires, and an opaque definition. */
  datatype Trigger = Trigger(key: TriggerKey, jobKey: JobKey, definition: Bytes)

  /** Quartz's `Trigger.TriggerState`. */
  datatype TriggerState = NORMAL | PAUSED | COMPLETE | ERROR | BLOCKED | NONE

  /** The serializable envelope written for every trigger record. */
  datatype TriggerStatus = TriggerStatus(trigger: Trigger, state: TriggerState)

  /** What can escape an adapter call or abort initialization. */
  datatype Error =
    | AlreadyExists       // engine: duplicate key with replaceExisting == false
    | JobNotFound         // engine: a trigger references a job it does not hold
    | TransactionFailure  // the record table's transaction did not commit
    | Corrupt             // a record that does not deserialize to the expected class

  /** Only these trigger states are replayed into a fresh engine. */
  predicate Replayable(st: TriggerState) {
    st == NORMAL || st == PAUSED
  }
}
